=== FILE: README.md ===
# Boid steering in Dafny

A model of the flocking engine of `sketch.js`, a p5.js sketch in which a flock
of boids steers by three neighbour rules (alignment, cohesion, separation),
swerves around a hand-tracked obstacle according to each boid's temperament
(extrovert, introvert, normal), wraps around the canvas edges, and is nudged
every frame towards an audio-driven random velocity.

The model works over exact `real` 2D vectors (`Vectors.Vec`).  The square root
that p5 uses inside `dist`, `setMag` and `limit` is a parameter
`root: real -> real` constrained by `Vectors.IsRoot` (the non-negative square
root), so `SetMag`, `Limit` and `Dist` are defined the way p5 computes them and
their contracts are proved rather than assumed.  Every `random(...)` draw of
`createBoid` except the colour ones is an input (`Boids.Draws`), the obstacle is an
`Options.Option<Vec>` (no hand seen is `None`), and the audio targets of the
velocity blend are one input vector per boid.

Modules, in dependency order:

- `Options` — `Option`.
- `Vectors` — vector arithmetic, `Within` (length bound without a root),
  `SetMag`, `Limit`, `Dist`, and the algebra the proofs need.
- `Boids` — the boid record, the behaviour classifier and `createBoid`.
- `Steering` — the neighbour test and the three rules, one parameterised
  `Steer`, with the tally loop as a method.
- `Avoidance` — `avoidObstacle` and its factor table.
- `Flocking` — `edge`, `flockBoids`, `updateBoid`, the audio blend, and the
  per-boid loop of `draw` (`Loop` over `DrawStep`, composed into `Frame`).
- `Scenarios` — whole-flock consequences: a close pair at rest feels no force,
  a settled flock is a fixed point of a frame, and a concrete three-boid flock.

Consequences of the code that are easy to miss:

- `draw` finishes each boid (wrap, steer, integrate, blend) before it moves on,
  so boid `k` steers against boids `0 .. k-1` as already moved this frame; the
  model keeps that order (`Flocking.Loop`, and `Flocking.FrameInPlace` states
  it).
- The speed cap is not an invariant: a new boid's speed is drawn from
  [2, 4) independently of its cap drawn from [2, 6)
  (`Boids.CreatedSpeedCanExceedCap`), and the audio blend after `updateBoid`
  can push a boid past its cap in one frame (`Flocking.FrameCanBreakSpeedCap`).
  The cap does hold after a frame when every audio target is itself within the
  cap (`Flocking.FrameSpeedCap`).
- For two boids at rest closer than 50 with nobody else within 100, cohesion
  and separation come out exactly opposite and alignment is zero, so the pair
  feels no acceleration at all (`Scenarios.PairAtRestBalances`).  With no
  hand in view and every audio target zero, the three-boid flock with such
  a pair is a fixed point of a frame (`Scenarios.TrioStaysPut`); the
  sketch's own audio targets are non-zero random headings, and with them
  the trio does move.
- Separation divides each offset by the distance; p5 leaves a vector unchanged
  on division by zero, and the offset is then zero anyway, so the model
  guards that case and contributes the zero vector.

## Model

| member | source | states |
|---|---|---|
| Vectors.SetMag | sketch.js:217 | a non-zero vector is rescaled to squared length m²; the zero vector stays zero |
| Vectors.Limit | sketch.js:219 | the result is within m; a vector already within m is returned unchanged; a longer one comes back with length exactly m |
| Vectors.SetMagDirection | sketch.js:217 | `setMag` of a non-zero vector to a non-zero length m is a multiple k·v of it, with k > 0 when m > 0 and k < 0 when m < 0 |
| Vectors.LimitScales | sketch.js:219 | `limit` returns a multiple k·v of its input with 0 ≤ k ≤ 1, and k > 0 when m > 0 |
| Vectors.SetMagPositiveScale | sketch.js:216-217 | `setMag` ignores a positive rescaling of its input, so dividing the alignment sum (216-217) or the separation sum (271-272) by the neighbour count does not change what `setMag` returns; dividing a separation offset by its distance (265) leaves the result unchanged only when that neighbour is the only one, since with several neighbours each offset is scaled by its own distance and the direction of the sum changes |
| Vectors.DistSquared | sketch.js:204-209 | `dist` is non-negative and squares to the squared distance |
| Boids.Classify | sketch.js:107-115 | extrovert exactly when the draw is below 0.1, introvert exactly when it is in [0.1, 0.2), normal exactly from 0.2 on |
| Boids.ClassifyMonotone | sketch.js:109-115 | a larger draw never gives an earlier behaviour in the order extrovert, introvert, normal |
| Boids.RandomIn | sketch.js:143-144 | `random(lo, hi)` with a unit draw lands in [lo, hi) |
| Boids.RandomBelow | sketch.js:139 | `random(n)` with a unit draw and n > 0 lands in [0, n) |
| Boids.CreateBoid | sketch.js:138-147 | zero acceleration, behaviour as classified, and for in-range draws maxForce in [0.2, 0.8), maxSpeed in [2, 6), squared speed in [4, 16), position on the canvas |
| Boids.CreatedSpeedCanExceedCap | sketch.js:140-144 | some in-range draws create a boid already faster than its own maxSpeed |
| Steering.NeighbourBySquares | sketch.js:204-210 | another boid is a neighbour exactly when it is not the boid itself and its squared distance is below the squared radius |
| Steering.NeighbourCount | sketch.js:210-212 | the count is at most the number of boids looked at, and it is zero exactly when none of them is a neighbour |
| Steering.Tally | sketch.js:201-214 | the loop over the flock computes the neighbour count and the sum of the rule's contributions |
| Steering.CountIsSetSize | sketch.js:210-212 | the count is the size of the set of neighbour indices, and the boid itself is never in that set |
| Steering.CountMonotoneInRadius | sketch.js:200-253 | a larger perception radius never counts fewer neighbours |
| Steering.RadiiNest | sketch.js:200-253 | separation (50) counts no more neighbours than cohesion (60), which counts no more than alignment (100) |
| Steering.Contribution | sketch.js:211-266 | a neighbour adds its velocity to the alignment sum (211) and its position to the cohesion sum (237); to the separation sum it adds a vector of length 1, parallel to the offset from it to the boid (zero cross product) and pointing the same way (positive projection), so that offset divided by the distance (264-266), and the zero vector when the two share a position |
| Steering.HeadingIsMean | sketch.js:215-216 | the heading times the neighbour count gives back the sum of the contributions; for cohesion (242-243) after the boid's own position is added back |
| Steering.Steer | sketch.js:199-277 | each rule's force is within maxForce, and it is the zero vector when there is no neighbour |
| Steering.SoleNeighbourTally | sketch.js:203-214 | when exactly one boid is a neighbour, the tally counts one and sums that boid's contribution |
| Steering.TalliesAgree | sketch.js:203-214 | two flocks that agree on neighbourhood and contributions give the same count and sum |
| Steering.SteerReadsKinematics | sketch.js:199-277 | the rules read only positions and velocities of the flock and the boid's own limits |
| Steering.FarBoidIgnored | sketch.js:210 | replacing a boid that is and stays outside the radius does not change the rule's force |
| Steering.SteerAtRest | sketch.js:215-220 | for a boid at rest with neighbours, the force is a positive multiple of the rule's desired heading, so it has a positive projection on it |
| Avoidance.AvoidanceFactor | sketch.js:312-321 | the factor is negative exactly for extroverts, above one exactly for introverts, and one exactly for normal boids |
| Avoidance.AvoidObstacle | sketch.js:303-332 | the avoidance force is within maxForce, and zero when the obstacle is 140 or further away |
| Avoidance.OutOfReach | sketch.js:323 | the same range test on squared distances: no force from 140² on |
| Avoidance.DesireSize | sketch.js:312-325 | the desired velocity is as long as maxSpeed times the factor, and that signed speed is negative exactly for extroverts, above maxSpeed exactly for introverts, and maxSpeed exactly for normal boids |
| Avoidance.AvoidancePolarity | sketch.js:315-328 | for a boid within reach moving no faster than its cap, an extrovert is pulled towards the obstacle and an introvert pushed away; a normal boid strictly slower than its cap is pushed away |
| Avoidance.PushAlong | sketch.js:324-326 | when the desired velocity projects onto the away direction with maxSpeed·factor·length and the current velocity is within maxSpeed, desired minus current projects negatively for a factor below −1, positively for a factor above 1, and positively for factor 1 when the current speed is strictly below the cap |
| Avoidance.AvoidIgnoresAcceleration | sketch.js:303-332 | the avoidance force does not depend on the boid's acceleration |
| Flocking.WrapAxis | sketch.js:186-190 | past the far side goes to 0, below 0 goes to the far side, anything in between is kept; the result is on the axis |
| Flocking.Edge | sketch.js:185-196 | both coordinates end on the canvas, a point on the canvas is unchanged, and each coordinate that changes was off that side |
| Flocking.EdgeIdempotent | sketch.js:185-196 | wrapping twice is wrapping once |
| Flocking.FlockBoids | sketch.js:162-175 | only the acceleration changes, and it is within 3·maxForce, or 4·maxForce with an obstacle |
| Flocking.AccelerationReset | sketch.js:163 | the acceleration a boid carries in has no effect on its new acceleration |
| Flocking.ThreeRules | sketch.js:163-169 | without an obstacle the acceleration is exactly alignment plus cohesion plus separation |
| Flocking.ObstacleTerm | sketch.js:171-174 | with an obstacle the acceleration is the obstacle-free one plus the avoidance force |
| Flocking.LoneBoidCoasts | sketch.js:162-175 | a boid with no neighbour within 100 and no obstacle gets zero acceleration |
| Flocking.QuietRule | sketch.js:215-221 | a rule with zero neighbours contributes the zero vector |
| Flocking.UpdateBoid | sketch.js:178-182 | the position advances by the old velocity, the new velocity is within maxSpeed and equals old velocity plus acceleration whenever that is within the cap, nothing else changes |
| Flocking.UpdateKeepsDirection | sketch.js:180-181 | the new velocity is a multiple k·(v + a) with 0 ≤ k ≤ 1 |
| Flocking.UpdateUsesOldVelocity | sketch.js:179-180 | with a non-zero acceleration the position did not move by the new velocity |
| Flocking.AudioBias | sketch.js:96 | `lerp(t, 0.1)` is the convex combination 0.9·v + 0.1·t |
| Flocking.BiasClosesGap | sketch.js:96 | the blend closes a tenth of the gap to the audio target |
| Flocking.BiasWithinBound | sketch.js:96 | blending two vectors within m stays within m |
| Flocking.StepBoid | sketch.js:76-97 | one pass of the loop body changes only the boid it is for |
| Flocking.StepFacts | sketch.js:76-97 | the pass keeps the boid's limits and behaviour, moves it by its old velocity from the wrapped position, caps then blends its velocity, and bounds its acceleration |
| Flocking.Loop | sketch.js:76-99 | the loop from boid k on keeps the flock's length and leaves the boids before k as they were |
| Flocking.LoopSteps | sketch.js:76-99 | across the loop each boid is rewritten only by its own pass, from its state before the loop |
| Flocking.LoopStill | sketch.js:76-99 | a loop whose every pass hands on the flock leaves the flock alone |
| Flocking.DrawStep | sketch.js:76-97 | each pass of `draw`'s body rewrites only its own boid and keeps the flock's length |
| Flocking.Frame | sketch.js:76-99 | a frame keeps the number of boids |
| Flocking.LoopAfterPasses | sketch.js:76-99 | running the loop from the first boid is running its first k passes and then the loop from boid k |
| Flocking.FrameInPlace | sketch.js:76-78 | the boids are stepped in place, one after another: boid k is stepped in the flock the first k passes left behind, in which boids 0 .. k-1 already hold their state after the frame and boids from k on still hold their state before it |
| Flocking.FrameFacts | sketch.js:76-99 | after a frame every boid has been stepped once, as `StepFacts` describes |
| Flocking.FrameSpeedCap | sketch.js:93-96 | after a frame each velocity is within the boid's cap provided every audio target is |
| Flocking.FrameCanBreakSpeedCap | sketch.js:93-96 | a lone boid at rest with cap 2 and audio target (40, 0) is faster than its cap after one frame |
| Flocking.LoneStepVelocity | sketch.js:76-96 | a lone boid's pass only caps its velocity and blends it towards the target |
| Scenarios.SeparationMirrorsCohesion | sketch.js:236-272 | with a single neighbour, the separation heading rescaled to maxSpeed is exactly the opposite of the cohesion one |
| Scenarios.PairAtRestBalances | sketch.js:162-277 | for a close pair at rest, alignment is zero and cohesion plus separation cancel, so the acceleration is zero |
| Scenarios.SettledFlockStays | sketch.js:76-99 | a flock of boids at rest on the canvas, with zero force and zero audio targets, is unchanged by a frame |
| Scenarios.TrioCohesionPulls | sketch.js:225-248 | in the three-boid flock, cohesion alone does pull boid 0 towards boid 1 |
| Scenarios.PairAndLonerForces | sketch.js:162-175 | in any three resting boids made of a close pair and a boid with nobody within 100, no boid accelerates |
| Scenarios.TrioForces | sketch.js:162-175 | in the three-boid flock every boid gets zero acceleration |
| Scenarios.TrioStaysPut | sketch.js:76-99 | with no obstacle and every audio target zero, the three-boid flock is a fixed point of a frame |

## Left out

- Tone.js player, oscillator, analyser and microphone (sketch.js:25-38): audio
  I/O through library objects; the FFT value only feeds the audio targets.
- The click handler (sketch.js:41-46) that starts playback and pushes 100
  created boids: the model takes any flock, and `Boids.CreateBoid` models one
  creation.
- Canvas, frame rate, video capture and the ml5 handpose model
  (sketch.js:49-68), and `drawHand` (sketch.js:280-300): camera and inference;
  the obstacle position it leaves behind is an `Option<Vec>` input.
- `showBoid` (sketch.js:151-159), the background fill and the colour draws in
  `createBoid` (sketch.js:117-136): rendering only.
- The audio target of the blend (sketch.js:81-95: `random2D`, `map` over the
  FFT bin 100, `setMag`): random and audio-driven, so each boid's target is an
  input vector; only the `lerp` by 0.1 (sketch.js:96) is modelled.
- Floating point: all arithmetic is exact over the reals, and the square root
  is the exact one supplied through `root`; p5's rounding is not modelled.
- Object identity: the sketch's `other != b` compares objects; the model
  compares indices into the flock, which is the same thing for a flock of
  distinct objects.

=== FILE: avoidance.dfy ===
/** Obstacle avoidance (`avoidObstacle` in sketch.js).

    The obstacle is the tracked index-finger tip; it has radius 40 and a boid
    reacts to it from closer than 40 + 100.  How a boid reacts depends on its
    behaviour through a signed factor on the desired speed. */
module Avoidance {
  import opened Vectors
  import opened Boids

  const ObstacleRadius := 40.0

  /** A boid reacts to the obstacle from strictly closer than this. */
  const Reach := ObstacleRadius + 100.0

  /** The factor the desired speed away from the obstacle is multiplied by:
      negative (attraction) exactly for extroverts, above one (a stronger
      push) exactly for introverts, one for normal boids. */
  function AvoidanceFactor(behavior: Behavior): (f: real)
    ensures f < 0.0 <==> behavior == Extrovert
    ensures f > 1.0 <==> behavior == Introvert
    ensures f == 1.0 <==> behavior == Normal
  {
    match behavior
    case Extrovert => -2.0
    case Introvert => 100.0
    case Normal => 1.0
  }

  /** The avoidance force on `b` from an obstacle at `obstacle`. */
  function AvoidObstacle(b: Boid, obstacle: Vec, root: real -> real): (r: Vec)
    requires IsRoot(root)
    ensures Within(r, b.maxForce)
    ensures Reach <= Dist(b.position, obstacle, root) ==> r == Zero
  {
    if Dist(b.position, obstacle, root) < Reach then
      Limit(Sub(Desire(b, obstacle, root), b.velocity), b.maxForce, root)
    else
      WithinZero(b.maxForce);
      Zero
  }

  /** The velocity `b` would like to have: away from the obstacle at
      `maxSpeed` times the behaviour's factor. */
  function Desire(b: Boid, obstacle: Vec, root: real -> real): Vec
    requires IsRoot(root)
  {
    SetMag(Sub(b.position, obstacle), DesiredSpeed(b), root)
  }

  /** The signed speed of the desired velocity away from the obstacle. */
  function DesiredSpeed(b: Boid): real {
    b.maxSpeed * AvoidanceFactor(b.behavior)
  }

  /** The desired velocity has the length of the signed desired speed, and
      that speed is negative exactly for extroverts, above `maxSpeed` exactly
      for introverts and equal to it exactly for normal boids. */
  lemma DesireSize(b: Boid, obstacle: Vec, root: real -> real)
    requires IsRoot(root) && b.position != obstacle && 0.0 < b.maxSpeed
    ensures NormSq(Desire(b, obstacle, root)) == DesiredSpeed(b) * DesiredSpeed(b)
    ensures DesiredSpeed(b) < 0.0 <==> b.behavior == Extrovert
    ensures b.maxSpeed < DesiredSpeed(b) <==> b.behavior == Introvert
    ensures DesiredSpeed(b) == b.maxSpeed <==> b.behavior == Normal
  {
    assert Sub(b.position, obstacle) != Zero;
  }

  /** The force bound of `AvoidObstacle`, for a caller that names `maxForce`. */
  lemma AvoidBounded(b: Boid, obstacle: Vec, m: real, root: real -> real)
    requires IsRoot(root) && m == b.maxForce
    ensures Within(AvoidObstacle(b, obstacle, root), m)
  {
  }

  /** The force does not read the boid's acceleration. */
  lemma AvoidIgnoresAcceleration(b: Boid, a: Vec, obstacle: Vec, root: real -> real)
    requires IsRoot(root)
    ensures AvoidObstacle(b.(acceleration := a), obstacle, root) == AvoidObstacle(b, obstacle, root)
  {
  }

  /** The range test on squared distances: no force from 140 or further. */
  lemma OutOfReach(b: Boid, obstacle: Vec, root: real -> real)
    requires IsRoot(root)
    requires Reach * Reach <= DistSq(b.position, obstacle)
    ensures AvoidObstacle(b, obstacle, root) == Zero
  {
    NormSqNonNeg(Sub(b.position, obstacle));
    RootBelow(root, DistSq(b.position, obstacle), Reach);
  }

  /** For a boid within reach that moves no faster than its cap, the
      obstacle pulls an extrovert towards it and pushes an introvert away.
      A normal boid, whose desired speed equals its cap, is pushed away
      when it is strictly slower than the cap. */
  lemma AvoidancePolarity(b: Boid, obstacle: Vec, root: real -> real)
    requires IsRoot(root)
    requires Within(b.velocity, b.maxSpeed) && 0.0 < b.maxSpeed && 0.0 < b.maxForce
    requires b.position != obstacle && DistSq(b.position, obstacle) < Reach * Reach
    ensures b.behavior == Extrovert ==> Dot(AvoidObstacle(b, obstacle, root), Sub(b.position, obstacle)) < 0.0
    ensures b.behavior == Introvert ==> 0.0 < Dot(AvoidObstacle(b, obstacle, root), Sub(b.position, obstacle))
    ensures b.behavior == Normal && NormSq(b.velocity) < b.maxSpeed * b.maxSpeed ==>
      0.0 < Dot(AvoidObstacle(b, obstacle, root), Sub(b.position, obstacle))
  {
    var diff := Sub(b.position, obstacle);
    var w := Sub(Desire(b, obstacle, root), b.velocity);
    OutOfReachConverse(b, obstacle, root);
    assert AvoidObstacle(b, obstacle, root) == Limit(w, b.maxForce, root);
    LimitKeepsSign(w, b.maxForce, diff, root);
    SteeringSign(b, obstacle, root);
  }

  /** Limiting to a positive length keeps the sign of a projection. */
  lemma LimitKeepsSign(w: Vec, m: real, u: Vec, root: real -> real)
    requires IsRoot(root) && 0.0 < m
    ensures Dot(w, u) < 0.0 ==> Dot(Limit(w, m, root), u) < 0.0
    ensures 0.0 < Dot(w, u) ==> 0.0 < Dot(Limit(w, m, root), u)
  {
    LimitScales(w, m, root);
    var k :| 0.0 <= k <= 1.0 && (0.0 < m ==> 0.0 < k) && Limit(w, m, root) == Scale(w, k);
    DotScaled(w, k, u);
    SignOfProduct(Dot(w, u), k);
  }

  /** The sign of the unlimited steering vector, desired minus current
      velocity, along the direction away from the obstacle. */
  lemma SteeringSign(b: Boid, obstacle: Vec, root: real -> real)
    requires IsRoot(root)
    requires Within(b.velocity, b.maxSpeed) && 0.0 < b.maxSpeed
    requires b.position != obstacle
    ensures var d := Dot(Sub(Desire(b, obstacle, root), b.velocity), Sub(b.position, obstacle));
      (b.behavior == Extrovert ==> d < 0.0)
      && (b.behavior == Introvert ==> 0.0 < d)
      && (b.behavior == Normal && NormSq(b.velocity) < b.maxSpeed * b.maxSpeed ==> 0.0 < d)
  {
    var diff := Sub(b.position, obstacle);
    assert diff != Zero;
    var desired := Desire(b, obstacle, root);
    DotOfSetMag(diff, DesiredSpeed(b), root);
    PushAlong(desired, b.velocity, diff, b.maxSpeed, AvoidanceFactor(b.behavior), root(NormSq(diff)), root);
  }

  /** The same on plain vectors: `desired` projects onto `u`, of length
      `len`, with `s * f * len`, and `v` is within `s`. */
  lemma PushAlong(desired: Vec, v: Vec, u: Vec, s: real, f: real, len: real, root: real -> real)
    requires IsRoot(root) && 0.0 < s && 0.0 < len && Within(v, s)
    requires NormSq(u) == len * len && Dot(desired, u) == (s * f) * len
    ensures f < -1.0 ==> Dot(Sub(desired, v), u) < 0.0
    ensures 1.0 < f ==> 0.0 < Dot(Sub(desired, v), u)
    ensures f == 1.0 && NormSq(v) < s * s ==> 0.0 < Dot(Sub(desired, v), u)
  {
    DotOfDifference(desired, v, u);
    ProjectionBounds(v, u, s, len, root);
    MulPos(s, len);
    SignOfPush(f, s, len, Dot(desired, u), Dot(v, u), NormSq(v) < s * s);
  }

  /** The sign argument on the projections alone: the desired velocity
      projects with `f * s * len`, the current one with at most `s * len`
      either way, and strictly less when `slower`. */
  lemma SignOfPush(f: real, s: real, len: real, q: real, x: real, slower: bool)
    requires 0.0 < s * len
    requires q == (s * f) * len
    requires -(s * len) <= x <= s * len
    requires slower ==> x < s * len
    ensures f < -1.0 ==> q - x < 0.0
    ensures 1.0 < f ==> 0.0 < q - x
    ensures f == 1.0 && slower ==> 0.0 < q - x
  {
    SpeedAlong(s, f, len);
    var sl := s * len;
    assert q == f * sl;
    if f < -1.0 {
      MulLt(f, -1.0, sl);
      assert q < -sl;
    } else if 1.0 < f {
      MulLt(1.0, f, sl);
      assert sl < q;
    } else if f == 1.0 {
      assert q == sl;
    }
  }

  /** Dot products distribute over a difference. */
  lemma DotOfDifference(a: Vec, v: Vec, u: Vec)
    ensures Dot(Sub(a, v), u) == Dot(a, u) - Dot(v, u)
  {
  }

  /** Scaling one side scales the dot product. */
  lemma DotScaled(w: Vec, k: real, u: Vec)
    ensures Dot(Scale(w, k), u) == Dot(w, u) * k
  {
  }

  lemma SpeedAlong(s: real, f: real, len: real)
    ensures (s * f) * len == f * (s * len)
  {
  }

  /** Cauchy-Schwarz against a vector of length `len`: a velocity within `s`
      projects onto it within `s * len` either way, and strictly below when
      it is strictly slower than `s`. */
  lemma ProjectionBounds(v: Vec, u: Vec, s: real, len: real, root: real -> real)
    requires IsRoot(root) && 0.0 < s && 0.0 < len
    requires Within(v, s) && NormSq(u) == len * len
    ensures -(s * len) <= Dot(v, u) <= s * len
    ensures NormSq(v) < s * s ==> Dot(v, u) < s * len
  {
    DotBound(v, u, s, len);
    NormSqNegate(v);
    DotBound(Scale(v, -1.0), u, s, len);
    DotScaled(v, -1.0, u);
    if NormSq(v) < s * s {
      NormSqNonNeg(v);
      RootFacts(root, NormSq(v));
      RootBelow(root, NormSq(v), s);
      SlowerProjection(v, u, root(NormSq(v)), s, len);
    }
  }

  /** A vector strictly shorter than `s` projects onto one of length `len`
      with less than `s * len`. */
  lemma SlowerProjection(v: Vec, u: Vec, p: real, s: real, len: real)
    requires 0.0 <= p < s && 0.0 < len
    requires NormSq(v) <= p * p && NormSq(u) <= len * len
    ensures Dot(v, u) < s * len
  {
    DotBound(v, u, p, len);
    MulLt(p, s, len);
  }

  lemma OutOfReachConverse(b: Boid, obstacle: Vec, root: real -> real)
    requires IsRoot(root)
    requires DistSq(b.position, obstacle) < Reach * Reach
    ensures Dist(b.position, obstacle, root) < Reach
  {
    NormSqNonNeg(Sub(b.position, obstacle));
    RootBelow(root, DistSq(b.position, obstacle), Reach);
  }

  lemma SignOfProduct(a: real, k: real)
    requires 0.0 < k
    ensures 0.0 < a ==> 0.0 < a * k
    ensures a < 0.0 ==> a * k < 0.0
  {
    if a < 0.0 {
      MulPos(-a, k);
      assert (-a) * k == -(a * k);
    } else if 0.0 < a {
      MulPos(a, k);
    }
  }
}

=== FILE: boids.dfy ===
/** Boid records and their creation (`createBoid` in sketch.js).

    Every `random(...)` call of the sketch is a unit draw `u` in [0, 1) passed
    in through `Draws`; p5's `random(lo, hi)` is then `u * (hi - lo) + lo` and
    `random(n)` is `u * n`.  `random2D()` is a unit heading. */
module Boids {
  import opened Vectors

  datatype Behavior = Normal | Extrovert | Introvert

  /** A drawing surface; the sketch draws on a 500 by 500 canvas. */
  datatype Canvas = Canvas(width: real, height: real)

  const SketchCanvas := Canvas(500.0, 500.0)

  /** One boid.  The sketch also stores a colour, which only the renderer reads. */
  datatype Boid = Boid(
    position: Vec,
    velocity: Vec,
    acceleration: Vec,
    maxForce: real,
    maxSpeed: real,
    behavior: Behavior)

  /** The random draws `createBoid` consumes, apart from the colour ones. */
  datatype Draws = Draws(
    chance: real,    // behaviour
    px: real,        // position x, as a fraction of the width
    py: real,        // position y, as a fraction of the height
    heading: Vec,    // random2D()
    speed: real,     // initial speed
    force: real,     // maxForce
    topSpeed: real)  // maxSpeed

  predicate IsUnit(u: real) { 0.0 <= u < 1.0 }

  /** Draws p5 can actually produce. */
  predicate WellFormed(d: Draws) {
    IsUnit(d.chance) && IsUnit(d.px) && IsUnit(d.py) && NormSq(d.heading) == 1.0
    && IsUnit(d.speed) && IsUnit(d.force) && IsUnit(d.topSpeed)
  }

  /** p5's `random(lo, hi)` for the unit draw `u`. */
  function RandomIn(lo: real, hi: real, u: real): (r: real)
    requires lo < hi
    ensures IsUnit(u) ==> lo <= r
    ensures IsUnit(u) ==> r < hi
  {
    var r := u * (hi - lo) + lo;
    UnitBetween(u, lo, hi - lo, r);
    r
  }

  /** p5's `random(n)` for the unit draw `u`. */
  function RandomBelow(n: real, u: real): (r: real)
    ensures IsUnit(u) && 0.0 < n ==> 0.0 <= r
    ensures IsUnit(u) && 0.0 < n ==> r < n
  {
    var r := u * n;
    UnitScaledBelow(u, n, r);
    r
  }

  /** A unit draw stretched onto [lo, lo + d) lands in it. */
  lemma UnitBetween(u: real, lo: real, d: real, r: real)
    requires 0.0 < d && r == u * d + lo
    ensures IsUnit(u) ==> lo <= r
    ensures IsUnit(u) ==> r < lo + d
  {
    if IsUnit(u) {
      MulLe(0.0, u, d);
      MulLt(u, 1.0, d);
    }
  }

  /** The behaviour a draw selects: below 0.1 extrovert, below 0.2 introvert,
      otherwise normal. */
  function Classify(chance: real): (r: Behavior)
    ensures r == Extrovert <==> chance < 0.1
    ensures r == Introvert <==> 0.1 <= chance < 0.2
    ensures r == Normal <==> 0.2 <= chance
  {
    if chance < 0.1 then Extrovert
    else if chance < 0.2 then Introvert
    else Normal
  }

  /** The order in which the thresholds hand out behaviours. */
  function Rank(b: Behavior): nat {
    match b
    case Extrovert => 0
    case Introvert => 1
    case Normal => 2
  }

  /** A larger draw never selects an earlier behaviour, so each behaviour owns
      one interval of draws: [0, 0.1), [0.1, 0.2) and [0.2, 1). */
  lemma ClassifyMonotone(a: real, b: real)
    requires a <= b
    ensures Rank(Classify(a)) <= Rank(Classify(b))
  {
  }

  /** `createBoid` without the colour. */
  function CreateBoid(d: Draws, canvas: Canvas, root: real -> real): (b: Boid)
    requires IsRoot(root)
    ensures b.acceleration == Zero
    ensures b.behavior == Classify(d.chance)
    ensures WellFormed(d) ==> 0.2 <= b.maxForce < 0.8 && 2.0 <= b.maxSpeed < 6.0
    ensures WellFormed(d) ==> 4.0 <= NormSq(b.velocity) < 16.0
    ensures WellFormed(d) && 0.0 < canvas.width && 0.0 < canvas.height ==>
      0.0 <= b.position.x < canvas.width && 0.0 <= b.position.y < canvas.height
  {
    var velocity := SetMag(d.heading, RandomIn(2.0, 4.0, d.speed), root);
    assert WellFormed(d) ==> 4.0 <= NormSq(velocity) < 16.0 by {
      if WellFormed(d) {
        InitialSpeed(d.heading, RandomIn(2.0, 4.0, d.speed), root);
      }
    }
    Boid(
      Vec(RandomBelow(canvas.width, d.px), RandomBelow(canvas.height, d.py)),
      velocity,
      Zero,
      RandomIn(0.2, 0.8, d.force),
      RandomIn(2.0, 6.0, d.topSpeed),
      Classify(d.chance))
  }

  /** A unit heading scaled to a speed in [2, 4) has squared length in [4, 16). */
  lemma InitialSpeed(h: Vec, speed: real, root: real -> real)
    requires IsRoot(root) && NormSq(h) == 1.0 && 2.0 <= speed < 4.0
    ensures 4.0 <= NormSq(SetMag(h, speed, root)) < 16.0
  {
    assert h != Zero;
    SquareLe2(2.0, speed);
    SquareLt(speed, 4.0);
  }

  lemma SquareLe2(a: real, b: real)
    requires 0.0 <= a <= b
    ensures a * a <= b * b
  {
    MulLe(a, b, a);
    MulLe(a, b, b);
  }

  /** A unit draw scaled by a positive extent lands in [0, extent). */
  lemma UnitScaledBelow(u: real, extent: real, r: real)
    requires r == u * extent
    ensures IsUnit(u) && 0.0 < extent ==> 0.0 <= r
    ensures IsUnit(u) && 0.0 < extent ==> r < extent
  {
    if IsUnit(u) && 0.0 < extent {
      MulLe(0.0, u, extent);
      MulLt(u, 1.0, extent);
    }
  }

  /** The draws that make a boid start faster than its own speed cap: speed
      draw 3.8, cap draw 2. */
  const FastStart := Draws(0.5, 0.5, 0.5, Vec(1.0, 0.0), 0.9, 0.0, 0.0)

  /** A freshly created boid need not respect its own `maxSpeed`: the initial
      speed is drawn from [2, 4) independently of the cap drawn from [2, 6). */
  lemma CreatedSpeedCanExceedCap(root: real -> real)
    requires IsRoot(root)
    ensures WellFormed(FastStart)
    ensures var b := CreateBoid(FastStart, SketchCanvas, root);
      NormSq(b.velocity) > b.maxSpeed * b.maxSpeed
  {
    var h := FastStart.heading;
    RootOfSquare(root, NormSq(h), 1.0);
    var b := CreateBoid(FastStart, SketchCanvas, root);
    assert RandomIn(2.0, 4.0, 0.9) == 3.8;
    SetMagNonZero(h, 3.8, root);
    assert b.velocity == Vec(3.8, 0.0);
  }
}

=== FILE: flocking.dfy ===
/** One animation frame of sketch.js: `edge`, `flockBoids`, `updateBoid` and
    the per-boid sequence `draw` runs them in.

    `draw` visits the boids in order and finishes each one (wrap, steer,
    integrate, audio blend) before it moves on, so boid `k` steers against
    boids `0 .. k-1` as they are after this frame and the rest as they were
    before it.  `Loop` follows that order.  The obstacle is the position
    the hand tracker left from the previous frame, or `None` when no hand was
    seen; the audio targets are the per-boid random vectors of the blend. */
module Flocking {
  import opened Vectors
  import opened Options
  import opened Boids
  import opened Steering
  import opened Avoidance

  // ---------------------------------------------------------------------------
  // edge
  // ---------------------------------------------------------------------------

  /** One axis of `edge`: past the far side jumps to 0, below 0 jumps to the
      far side. */
  function WrapAxis(c: real, extent: real): (r: real)
    ensures 0.0 <= extent ==> 0.0 <= r <= extent
    ensures 0.0 <= c <= extent ==> r == c
    ensures r != c ==> (extent < c && r == 0.0) || (c < 0.0 && r == extent)
  {
    if c > extent then 0.0
    else if c < 0.0 then extent
    else c
  }

  /** `edge`: wrap each coordinate independently. */
  function Edge(p: Vec, canvas: Canvas): (r: Vec)
    ensures 0.0 <= canvas.width && 0.0 <= canvas.height ==>
      0.0 <= r.x <= canvas.width && 0.0 <= r.y <= canvas.height
    ensures 0.0 <= p.x <= canvas.width && 0.0 <= p.y <= canvas.height ==> r == p
    ensures r.x != p.x ==> (canvas.width < p.x && r.x == 0.0) || (p.x < 0.0 && r.x == canvas.width)
    ensures r.y != p.y ==> (canvas.height < p.y && r.y == 0.0) || (p.y < 0.0 && r.y == canvas.height)
  {
    Vec(WrapAxis(p.x, canvas.width), WrapAxis(p.y, canvas.height))
  }

  /** Wrapping twice is wrapping once, whatever the canvas. */
  lemma EdgeIdempotent(p: Vec, canvas: Canvas)
    ensures Edge(Edge(p, canvas), canvas) == Edge(p, canvas)
  {
  }

  // ---------------------------------------------------------------------------
  // flockBoids
  // ---------------------------------------------------------------------------

  /** The bound on the acceleration's length: three limited forces, four when
      an obstacle is present. */
  function ForceCount(obstacle: Option<Vec>): real {
    if obstacle.Some? then 4.0 else 3.0
  }

  /** The sum of the three rule forces in the order they are added to the
      reset (zero) acceleration. */
  function RuleForces(flock: seq<Boid>, i: nat, root: real -> real): Vec
    requires IsRoot(root) && i < |flock|
  {
    Add(Add(Steer(Alignment, flock, i, root), Steer(Cohesion, flock, i, root)),
        Steer(Separation, flock, i, root))
  }

  /** The acceleration `flockBoids` leaves on boid `i`: the three rule
      forces, then the avoidance force when there is an obstacle. */
  function Acceleration(flock: seq<Boid>, i: nat, obstacle: Option<Vec>, root: real -> real): Vec
    requires IsRoot(root) && i < |flock|
  {
    match obstacle
    case None => RuleForces(flock, i, root)
    case Some(o) => Add(RuleForces(flock, i, root), AvoidObstacle(flock[i], o, root))
  }

  /** `flockBoids`: reset the acceleration and add the forces.  Nothing but
      the acceleration changes, and the force count bounds it. */
  function FlockBoids(flock: seq<Boid>, i: nat, obstacle: Option<Vec>, root: real -> real): (r: Boid)
    requires IsRoot(root) && i < |flock|
    ensures r == flock[i].(acceleration := r.acceleration)
    ensures 0.0 <= flock[i].maxForce ==> ForceBounded(r, ForceCount(obstacle))
  {
    AccelerationBounded(flock, i, obstacle, root);
    flock[i].(acceleration := Acceleration(flock, i, obstacle, root))
  }

  /** The acceleration is at most `n` times the boid's `maxForce` long. */
  predicate ForceBounded(b: Boid, n: real) {
    Within(b.acceleration, n * b.maxForce)
  }

  /** Each force is limited to `maxForce`, so the acceleration is at most
      three times `maxForce` long, four times with an obstacle. */
  lemma AccelerationBounded(flock: seq<Boid>, i: nat, obstacle: Option<Vec>, root: real -> real)
    requires IsRoot(root) && i < |flock|
    ensures 0.0 <= flock[i].maxForce ==>
      ForceBounded(flock[i].(acceleration := Acceleration(flock, i, obstacle, root)), ForceCount(obstacle))
  {
    if 0.0 <= flock[i].maxForce {
      BoundedForces(flock, i, obstacle, root);
    }
  }

  lemma BoundedForces(flock: seq<Boid>, i: nat, obstacle: Option<Vec>, root: real -> real)
    requires IsRoot(root) && i < |flock| && 0.0 <= flock[i].maxForce
    ensures ForceBounded(flock[i].(acceleration := Acceleration(flock, i, obstacle, root)), ForceCount(obstacle))
  {
    var m := flock[i].maxForce;
    var three, four := 3.0 * m, 4.0 * m;
    var rules := RuleForces(flock, i, root);
    RuleForcesBounded(flock, i, m, three, root);
    match obstacle
    case None =>
      WithAcceleration(flock[i], rules, obstacle, m, three);
    case Some(o) =>
      var avoid := AvoidObstacle(flock[i], o, root);
      AvoidBounded(flock[i], o, m, root);
      TriangleSq(rules, avoid, three, m, four);
      WithAcceleration(flock[i], Add(rules, avoid), obstacle, m, four);
  }

  /** Restates a bound on a new acceleration as `ForceBounded`. */
  lemma WithAcceleration(b: Boid, a: Vec, obstacle: Option<Vec>, m: real, r: real)
    requires m == b.maxForce && r == (if obstacle.Some? then 4.0 * m else 3.0 * m)
    requires Within(a, r)
    ensures ForceBounded(b.(acceleration := a), ForceCount(obstacle))
  {
  }

  lemma RuleForcesBounded(flock: seq<Boid>, i: nat, m: real, three: real, root: real -> real)
    requires IsRoot(root) && i < |flock| && m == flock[i].maxForce && 0.0 <= m && three == 3.0 * m
    ensures Within(RuleForces(flock, i, root), three)
  {
    var a, c, s := Steer(Alignment, flock, i, root), Steer(Cohesion, flock, i, root), Steer(Separation, flock, i, root);
    SteerBounded(Alignment, flock, i, m, root);
    SteerBounded(Cohesion, flock, i, m, root);
    SteerBounded(Separation, flock, i, m, root);
    ThreeForces(a, c, s, m, three);
  }

  lemma ThreeForces(a: Vec, c: Vec, s: Vec, m: real, three: real)
    requires 0.0 <= m && three == 3.0 * m
    requires Within(a, m) && Within(c, m) && Within(s, m)
    ensures Within(Add(Add(a, c), s), three)
  {
    TriangleSq(a, c, m, m, 2.0 * m);
    TriangleSq(Add(a, c), s, 2.0 * m, m, three);
  }

  /** Without an obstacle the acceleration is exactly the sum of the three
      rules, in the sketch's order. */
  lemma ThreeRules(flock: seq<Boid>, i: nat, root: real -> real)
    requires IsRoot(root) && i < |flock|
    ensures FlockBoids(flock, i, None, root).acceleration ==
      Add(Add(Steer(Alignment, flock, i, root), Steer(Cohesion, flock, i, root)), Steer(Separation, flock, i, root))
  {
  }

  /** The avoidance term is added exactly when there is an obstacle. */
  lemma ObstacleTerm(flock: seq<Boid>, i: nat, obstacle: Vec, root: real -> real)
    requires IsRoot(root) && i < |flock|
    ensures FlockBoids(flock, i, Some(obstacle), root).acceleration ==
      Add(FlockBoids(flock, i, None, root).acceleration, AvoidObstacle(flock[i], obstacle, root))
  {
  }

  /** The acceleration left from the previous frame plays no part: it is
      reset before the forces are added. */
  lemma AccelerationReset(flock: seq<Boid>, i: nat, a: Vec, obstacle: Option<Vec>, root: real -> real)
    requires IsRoot(root) && i < |flock|
    ensures FlockBoids(flock[i := flock[i].(acceleration := a)], i, obstacle, root).acceleration ==
      FlockBoids(flock, i, obstacle, root).acceleration
  {
    var g := flock[i := flock[i].(acceleration := a)];
    SteerReadsKinematics(Alignment, g, flock, i, root);
    SteerReadsKinematics(Cohesion, g, flock, i, root);
    SteerReadsKinematics(Separation, g, flock, i, root);
    assert RuleForces(g, i, root) == RuleForces(flock, i, root);
    if obstacle.Some? {
      AvoidIgnoresAcceleration(flock[i], a, obstacle.value, root);
    }
  }

  /** A boid with no other boid within 100 and no obstacle gets no
      acceleration: 100 is the largest perception radius. */
  lemma LoneBoidCoasts(flock: seq<Boid>, i: nat, root: real -> real)
    requires IsRoot(root) && i < |flock|
    requires forall j :: 0 <= j < |flock| ==> !IsNeighbour(flock, i, j, Radius(Alignment), root)
    ensures FlockBoids(flock, i, None, root).acceleration == Zero
  {
    assert Count(Alignment, flock, i, root) == 0;
    RadiiNest(flock, i, root);
    QuietRule(Alignment, flock, i, root);
    QuietRule(Cohesion, flock, i, root);
    QuietRule(Separation, flock, i, root);
    ZeroSum(Steer(Alignment, flock, i, root), Steer(Cohesion, flock, i, root), Steer(Separation, flock, i, root));
  }

  lemma ZeroSum(a: Vec, c: Vec, s: Vec)
    requires a == Zero && c == Zero && s == Zero
    ensures Add(Add(a, c), s) == Zero
  {
  }

  lemma QuietRule(rule: Rule, flock: seq<Boid>, i: nat, root: real -> real)
    requires IsRoot(root) && i < |flock| && Count(rule, flock, i, root) == 0
    ensures Steer(rule, flock, i, root) == Zero
  {
  }

  // ---------------------------------------------------------------------------
  // updateBoid
  // ---------------------------------------------------------------------------

  /** `updateBoid`: move by the velocity held so far, then add the
      acceleration to the velocity and cap its length at `maxSpeed`. */
  function UpdateBoid(b: Boid, root: real -> real): (r: Boid)
    requires IsRoot(root)
    ensures r == b.(position := r.position, velocity := r.velocity)
    ensures r.position == Add(b.position, b.velocity)
    ensures Within(r.velocity, b.maxSpeed)
    ensures Within(Add(b.velocity, b.acceleration), b.maxSpeed) ==>
      r.velocity == Add(b.velocity, b.acceleration)
  {
    b.(position := Add(b.position, b.velocity),
       velocity := Limit(Add(b.velocity, b.acceleration), b.maxSpeed, root))
  }

  /** The capped velocity keeps the direction of velocity plus acceleration. */
  lemma UpdateKeepsDirection(b: Boid, root: real -> real)
    requires IsRoot(root) && 0.0 <= b.maxSpeed
    ensures exists k :: 0.0 <= k <= 1.0 && UpdateBoid(b, root).velocity == Scale(Add(b.velocity, b.acceleration), k)
  {
    LimitScales(Add(b.velocity, b.acceleration), b.maxSpeed, root);
  }

  /** The position is advanced by the old velocity, not the new one: with a
      non-zero acceleration and no capping, the two orders disagree. */
  lemma UpdateUsesOldVelocity(b: Boid, root: real -> real)
    requires IsRoot(root)
    requires b.acceleration != Zero
    requires Within(Add(b.velocity, b.acceleration), b.maxSpeed)
    ensures UpdateBoid(b, root).position != Add(b.position, UpdateBoid(b, root).velocity)
  {
  }

  // ---------------------------------------------------------------------------
  // The audio blend
  // ---------------------------------------------------------------------------

  /** p5's `lerp(t, 0.1)` on the velocity: a tenth of the way towards `t`. */
  function AudioBias(v: Vec, t: Vec): (r: Vec)
    ensures r == Add(Scale(v, 0.9), Scale(t, 0.1))
  {
    Vec(v.x + (t.x - v.x) * 0.1, v.y + (t.y - v.y) * 0.1)
  }

  /** Each blend closes a tenth of the gap to the target. */
  lemma BiasClosesGap(v: Vec, t: Vec)
    ensures Sub(t, AudioBias(v, t)) == Scale(Sub(t, v), 0.9)
  {
  }

  /** A blend towards the velocity the boid already has changes nothing. */
  lemma BiasTowardItself(v: Vec, t: Vec)
    requires t == v
    ensures AudioBias(v, t) == v
  {
  }

  /** The blend of two vectors within a bound stays within it. */
  lemma BiasWithinBound(v: Vec, t: Vec, m: real)
    requires 0.0 <= m && Within(v, m) && Within(t, m)
    ensures Within(AudioBias(v, t), m)
  {
    NormSqScale(v, 0.9);
    NormSqScale(t, 0.1);
    assert (0.9 * m) * (0.9 * m) == 0.81 * (m * m);
    assert (0.1 * m) * (0.1 * m) == 0.01 * (m * m);
    TriangleSq(Scale(v, 0.9), Scale(t, 0.1), 0.9 * m, 0.1 * m, m);
  }

  // ---------------------------------------------------------------------------
  // draw
  // ---------------------------------------------------------------------------

  /** The body of `draw`'s loop for boid `i`; every other boid is left as it is. */
  function StepBoid(flock: seq<Boid>, i: nat, obstacle: Option<Vec>, target: Vec, canvas: Canvas, root: real -> real): (r: seq<Boid>)
    requires IsRoot(root) && i < |flock|
    ensures |r| == |flock|
    ensures forall j :: 0 <= j < |flock| && j != i ==> r[j] == flock[j]
  {
    var b := flock[i];
    var wrapped := flock[i := b.(position := Edge(b.position, canvas))];
    var steered := FlockBoids(wrapped, i, obstacle, root);
    var moved := UpdateBoid(steered, root);
    flock[i := moved.(velocity := AudioBias(moved.velocity, target))]
  }

  /** The step in closed form: boid `i` keeps its limits and behaviour, moves
      by its old velocity from the wrapped position, and takes the force the
      flock exerts on it once it is wrapped. */
  lemma StepShape(flock: seq<Boid>, i: nat, obstacle: Option<Vec>, target: Vec, canvas: Canvas, root: real -> real)
    requires IsRoot(root) && i < |flock|
    ensures var b := flock[i];
      var a := FlockBoids(flock[i := b.(position := Edge(b.position, canvas))], i, obstacle, root).acceleration;
      StepBoid(flock, i, obstacle, target, canvas, root)
        == flock[i := Boid(Add(Edge(b.position, canvas), b.velocity),
                           AudioBias(Limit(Add(b.velocity, a), b.maxSpeed, root), target),
                           a, b.maxForce, b.maxSpeed, b.behavior)]
  {
  }

  /** What the step does to boid `i`: the limits and the behaviour stay, the
      position moves by the old velocity from the wrapped position, the new
      velocity is the capped sum blended towards the target, and the
      acceleration is bounded by the force count. */
  predicate Stepped(before: Boid, after: Boid, obstacle: Option<Vec>, target: Vec, canvas: Canvas, root: real -> real)
    requires IsRoot(root)
  {
    after.maxForce == before.maxForce && after.maxSpeed == before.maxSpeed
    && after.behavior == before.behavior
    && after.position == Add(Edge(before.position, canvas), before.velocity)
    && after.velocity == AudioBias(Limit(Add(before.velocity, after.acceleration), before.maxSpeed, root), target)
    && (0.0 <= before.maxForce ==> ForceBounded(after, ForceCount(obstacle)))
  }

  lemma StepFacts(flock: seq<Boid>, i: nat, obstacle: Option<Vec>, target: Vec, canvas: Canvas, root: real -> real)
    requires IsRoot(root) && i < |flock|
    ensures Stepped(flock[i], StepBoid(flock, i, obstacle, target, canvas, root)[i], obstacle, target, canvas, root)
  {
    var b := flock[i];
    var wrapped := flock[i := b.(position := Edge(b.position, canvas))];
    var steered := FlockBoids(wrapped, i, obstacle, root);
    var moved := UpdateBoid(steered, root);
    var done := moved.(velocity := AudioBias(moved.velocity, target));
    if 0.0 <= b.maxForce {
      SameForce(steered, done, ForceCount(obstacle));
    }
  }

  lemma SameForce(b: Boid, c: Boid, n: real)
    requires ForceBounded(b, n)
    requires c.acceleration == b.acceleration && c.maxForce == b.maxForce
    ensures ForceBounded(c, n)
  {
  }

  /** A step of a loop over the flock that rewrites the boid at the index it
      is given and no other, and keeps the flock's length. */
  ghost predicate KeepsOthers(step: (seq<Boid>, nat) -> seq<Boid>) {
    (forall f: seq<Boid>, j: nat :: |step(f, j)| == |f|)
    && (forall f: seq<Boid>, j: nat, m: nat :: m < |f| && m != j ==> step(f, j)[m] == f[m])
  }

  /** `draw`'s loop from boid `k` on: each boid in turn is handed the flock as
      the earlier steps left it. */
  function Loop(flock: seq<Boid>, k: nat, step: (seq<Boid>, nat) -> seq<Boid>): (r: seq<Boid>)
    requires k <= |flock| && KeepsOthers(step)
    ensures |r| == |flock|
    ensures forall j :: 0 <= j < k ==> r[j] == flock[j]
    decreases |flock| - k
  {
    if k == |flock| then flock else Loop(step(flock, k), k + 1, step)
  }

  /** A loop whose every remaining step hands on the flock it is given leaves
      the flock alone. */
  lemma {:induction false} LoopStill(flock: seq<Boid>, k: nat, step: (seq<Boid>, nat) -> seq<Boid>)
    requires k <= |flock| && KeepsOthers(step)
    requires forall j :: k <= j < |flock| ==> step(flock, j) == flock
    ensures Loop(flock, k, step) == flock
    decreases |flock| - k
  {
    if k < |flock| {
      LoopStill(flock, k + 1, step);
    }
  }

  /** Each boid from `k` on is rewritten by its own step only, and that step
      sees the boid as it was before the loop: so any relation every step
      establishes between a boid before and after holds across the loop. */
  lemma {:induction false} LoopSteps(flock: seq<Boid>, k: nat, step: (seq<Boid>, nat) -> seq<Boid>,
                                      moved: (nat, Boid, Boid) -> bool)
    requires k <= |flock| && KeepsOthers(step)
    requires forall f: seq<Boid>, j: nat :: |f| == |flock| && j < |f| ==> moved(j, f[j], step(f, j)[j])
    ensures forall j :: k <= j < |flock| ==> moved(j, flock[j], Loop(flock, k, step)[j])
    decreases |flock| - k
  {
    if k < |flock| {
      var s := step(flock, k);
      LoopSteps(s, k + 1, step, moved);
      var r := Loop(flock, k, step);
      assert r == Loop(s, k + 1, step);
      forall j | k <= j < |flock|
        ensures moved(j, flock[j], r[j])
      {
        if j == k {
          assert r[j] == s[j];
        } else {
          assert s[j] == flock[j];
        }
      }
    }
  }

  /** The body of `draw`'s loop for the boid at index `j`, with the `j`-th
      audio target; an index past the flock or the targets changes nothing. */
  function DrawStep(obstacle: Option<Vec>, targets: seq<Vec>, canvas: Canvas, root: real -> real): (step: (seq<Boid>, nat) -> seq<Boid>)
    requires IsRoot(root)
    ensures KeepsOthers(step)
  {
    (f: seq<Boid>, j: nat) =>
      if j < |f| && j < |targets| then StepBoid(f, j, obstacle, targets[j], canvas, root) else f
  }

  /** The pass of `DrawStep` for a boid of the flock is that boid's step. */
  lemma DrawStepAt(obstacle: Option<Vec>, targets: seq<Vec>, canvas: Canvas, flock: seq<Boid>, j: nat, root: real -> real)
    requires IsRoot(root) && j < |flock| && j < |targets|
    ensures DrawStep(obstacle, targets, canvas, root)(flock, j) == StepBoid(flock, j, obstacle, targets[j], canvas, root)
  {
  }

  /** One call of `draw`, as far as the boids are concerned. */
  function Frame(flock: seq<Boid>, obstacle: Option<Vec>, targets: seq<Vec>, canvas: Canvas, root: real -> real): (r: seq<Boid>)
    requires IsRoot(root) && |targets| == |flock|
    ensures |r| == |flock|
  {
    Loop(flock, 0, DrawStep(obstacle, targets, canvas, root))
  }

  /** Each boid of the flock is stepped once in a frame, from its own state
      before the frame. */
  lemma FrameFacts(flock: seq<Boid>, obstacle: Option<Vec>, targets: seq<Vec>, canvas: Canvas, root: real -> real)
    requires IsRoot(root) && |targets| == |flock|
    ensures var r := Frame(flock, obstacle, targets, canvas, root);
      forall j :: 0 <= j < |flock| ==> Stepped(flock[j], r[j], obstacle, targets[j], canvas, root)
  {
    var step := DrawStep(obstacle, targets, canvas, root);
    var moved := (j: nat, b: Boid, c: Boid) => j < |targets| && Stepped(b, c, obstacle, targets[j], canvas, root);
    forall f: seq<Boid>, j: nat | |f| == |flock| && j < |f|
      ensures moved(j, f[j], step(f, j)[j])
    {
      StepFacts(f, j, obstacle, targets[j], canvas, root);
    }
    LoopSteps(flock, 0, step, moved);
  }

  /** The flock after the first `n` passes of a loop: the boids from `n` on
      are still as they were. */
  function Passes(flock: seq<Boid>, n: nat, step: (seq<Boid>, nat) -> seq<Boid>): (r: seq<Boid>)
    requires n <= |flock| && KeepsOthers(step)
    ensures |r| == |flock|
    ensures forall j :: n <= j < |flock| ==> r[j] == flock[j]
  {
    if n == 0 then flock else step(Passes(flock, n - 1, step), n - 1)
  }

  /** Running the loop from the start is running the first `k` passes and
      then the loop from `k`. */
  lemma {:induction false} LoopAfterPasses(flock: seq<Boid>, k: nat, step: (seq<Boid>, nat) -> seq<Boid>)
    requires k <= |flock| && KeepsOthers(step)
    ensures Loop(flock, 0, step) == Loop(Passes(flock, k, step), k, step)
  {
    if k > 0 {
      LoopAfterPasses(flock, k - 1, step);
      var g := Passes(flock, k - 1, step);
      assert Loop(g, k - 1, step) == Loop(step(g, k - 1), k, step);
    }
  }

  /** `draw` steps the boids in place, one after another: boid `k` is stepped
      in the flock as the first `k` passes left it, where boids `0 .. k-1`
      already have their state after the frame and boids from `k` on still
      have their state before it. */
  lemma FrameInPlace(flock: seq<Boid>, obstacle: Option<Vec>, targets: seq<Vec>, canvas: Canvas, k: nat, root: real -> real)
    requires IsRoot(root) && |targets| == |flock| && k < |flock|
    ensures var step := DrawStep(obstacle, targets, canvas, root);
      var g := Passes(flock, k, step);
      var r := Frame(flock, obstacle, targets, canvas, root);
      r[k] == StepBoid(g, k, obstacle, targets[k], canvas, root)[k]
      && (forall j :: 0 <= j < k ==> g[j] == r[j])
      && (forall j :: k <= j < |flock| ==> g[j] == flock[j])
  {
    var step := DrawStep(obstacle, targets, canvas, root);
    var g := Passes(flock, k, step);
    LoopAfterPasses(flock, k, step);
    assert Loop(g, k, step) == Loop(step(g, k), k + 1, step);
    DrawStepAt(obstacle, targets, canvas, g, k, root);
  }

  /** The speed cap holds after a frame when every audio target is itself
      within its boid's cap. */
  lemma FrameSpeedCap(flock: seq<Boid>, obstacle: Option<Vec>, targets: seq<Vec>, canvas: Canvas, root: real -> real)
    requires IsRoot(root) && |targets| == |flock|
    requires forall j :: 0 <= j < |flock| ==> 0.0 <= flock[j].maxSpeed && Within(targets[j], flock[j].maxSpeed)
    ensures var r := Frame(flock, obstacle, targets, canvas, root);
      forall j :: 0 <= j < |flock| ==> Within(r[j].velocity, flock[j].maxSpeed)
  {
    var r := Frame(flock, obstacle, targets, canvas, root);
    FrameFacts(flock, obstacle, targets, canvas, root);
    forall j | 0 <= j < |flock|
      ensures Within(r[j].velocity, flock[j].maxSpeed)
    {
      BlendedSpeed(flock[j].velocity, r[j].acceleration, r[j].velocity, targets[j], flock[j].maxSpeed, root);
    }
  }

  /** One boid's new velocity: the capped sum blended towards a target within
      the cap stays within the cap. */
  lemma BlendedSpeed(v: Vec, a: Vec, after: Vec, target: Vec, m: real, root: real -> real)
    requires IsRoot(root) && 0.0 <= m && Within(target, m)
    requires after == AudioBias(Limit(Add(v, a), m, root), target)
    ensures Within(after, m)
  {
    BiasWithinBound(Limit(Add(v, a), m, root), target, m);
  }

  /** A lone boid at rest with cap 2 and the loudest audio target (40 along
      the x axis). */
  const Resting := Boid(Vec(250.0, 250.0), Zero, Zero, 0.5, 2.0, Normal)

  /** The loudest audio target: 40 along the x axis. */
  const Loud := Vec(40.0, 0.0)

  /** The cap does not survive the audio blend: one frame can leave a boid
      faster than its `maxSpeed`. */
  lemma FrameCanBreakSpeedCap(root: real -> real)
    requires IsRoot(root)
    ensures !Within(Frame([Resting], None, [Loud], SketchCanvas, root)[0].velocity, Resting.maxSpeed)
  {
    RestingFrame(root);
    TooFast(Frame([Resting], None, [Loud], SketchCanvas, root)[0].velocity);
  }

  /** The frame takes the resting boid to velocity `(4, 0)`. */
  lemma RestingFrame(root: real -> real)
    requires IsRoot(root)
    ensures Frame([Resting], None, [Loud], SketchCanvas, root)[0].velocity == Vec(4.0, 0.0)
  {
    LoneFrame(Resting, Loud, SketchCanvas, root);
    LoneStepVelocity(Resting, Loud, SketchCanvas, root);
    LoudFromRest(Resting.velocity, Frame([Resting], None, [Loud], SketchCanvas, root)[0].velocity, Resting.maxSpeed, root);
  }

  /** A frame of a one-boid flock is that boid's step. */
  lemma LoneFrame(b: Boid, t: Vec, canvas: Canvas, root: real -> real)
    requires IsRoot(root)
    ensures Frame([b], None, [t], canvas, root) == StepBoid([b], 0, None, t, canvas, root)
  {
    var step := DrawStep(None, [t], canvas, root);
    var s := step([b], 0);
    assert s == StepBoid([b], 0, None, t, canvas, root);
    assert Loop(s, 1, step) == s;
  }

  /** A lone boid gets no steering force, so its step only caps its velocity
      and blends it towards the target. */
  lemma LoneStepVelocity(b: Boid, t: Vec, canvas: Canvas, root: real -> real)
    requires IsRoot(root)
    ensures StepBoid([b], 0, None, t, canvas, root)[0].velocity == AudioBias(Limit(b.velocity, b.maxSpeed, root), t)
  {
    var s := StepBoid([b], 0, None, t, canvas, root);
    LoneStepCoasts(b, t, canvas, root);
    StepFacts([b], 0, None, t, canvas, root);
    AddZeroVector(b.velocity, s[0].acceleration);
  }

  /** The lone boid's step sets no acceleration. */
  lemma LoneStepCoasts(b: Boid, t: Vec, canvas: Canvas, root: real -> real)
    requires IsRoot(root)
    ensures StepBoid([b], 0, None, t, canvas, root)[0].acceleration == Zero
  {
    var flock := [b];
    var wrapped := flock[0 := b.(position := Edge(b.position, canvas))];
    LoneBoidCoasts(wrapped, 0, root);
  }

  /** From rest the capped velocity is zero, and a tenth of the loud target
      is `(4, 0)`. */
  lemma LoudFromRest(v: Vec, after: Vec, m: real, root: real -> real)
    requires IsRoot(root) && v == Zero
    requires after == AudioBias(Limit(v, m, root), Loud)
    ensures after == Vec(4.0, 0.0)
  {
    LimitKeepsZero(v, m, root);
  }

  /** Speed 4 is over the cap 2. */
  lemma TooFast(v: Vec)
    requires v == Vec(4.0, 0.0)
    ensures !Within(v, 2.0)
  {
  }
}

=== FILE: options.dfy ===
/** An optional value: the obstacle position is either absent or a point. */
module Options {
  datatype Option<T> = None | Some(value: T)
}

=== FILE: scenarios.dfy ===
/** Small flocks worked through by hand: a pair of resting boids close
    enough to see each other, a flock in which nothing moves, and the
    three-boid flock at `(0, 0)`, `(10, 10)` and `(200, 200)`.

    For a resting pair the cohesion force pulls `b` towards its neighbour
    and the separation force pushes it away by exactly as much: both rules
    see one neighbour, both scale a vector along the same line to `maxSpeed`
    and limit it to `maxForce`, and the two vectors point in opposite
    directions.  So the close pair of the three-boid flock gets no
    acceleration at all, and with no hand in view and zero audio targets
    the whole flock keeps still. */
module Scenarios {
  import opened Vectors
  import opened Options
  import opened Boids
  import opened Steering
  import opened Flocking

  // ---------------------------------------------------------------------------
  // A resting pair
  // ---------------------------------------------------------------------------

  /** Boid `j` is the only boid within 100 of boid `i`, and it is closer
      than 50, so it is `i`'s sole neighbour under every rule. */
  predicate ClosePair(flock: seq<Boid>, i: nat, j: nat, root: real -> real)
    requires IsRoot(root) && i < |flock| && j < |flock|
  {
    IsNeighbour(flock, i, j, Radius(Separation), root)
    && forall k :: 0 <= k < |flock| && IsNeighbour(flock, i, k, Radius(Alignment), root) ==> k == j
  }

  lemma SoleForEveryRule(rule: Rule, flock: seq<Boid>, i: nat, j: nat, root: real -> real)
    requires IsRoot(root) && i < |flock| && j < |flock| && ClosePair(flock, i, j, root)
    ensures forall k :: 0 <= k < |flock| ==> (IsNeighbour(flock, i, k, Radius(rule), root) <==> k == j)
  {
    forall k | 0 <= k < |flock|
      ensures IsNeighbour(flock, i, k, Radius(rule), root) <==> k == j
    {
      if IsNeighbour(flock, i, k, Radius(rule), root) {
        assert IsNeighbour(flock, i, k, Radius(Alignment), root);
      }
    }
  }

  /** Under every rule a close pair divides by one and heads along what the
      single neighbour contributes. */
  lemma SoleHeading(rule: Rule, flock: seq<Boid>, i: nat, j: nat, root: real -> real)
    requires IsRoot(root) && i < |flock| && j < |flock| && ClosePair(flock, i, j, root)
    ensures Count(rule, flock, i, root) == 1
    ensures Heading(rule, flock, i, root) ==
      if rule == Cohesion then Sub(flock[j].position, flock[i].position)
      else Contribution(rule, flock[i], flock[j], root)
  {
    SoleForEveryRule(rule, flock, i, j, root);
    SoleNeighbourTally(flock, i, j, |flock|, rule, root);
  }

  /** The separation heading, brought to `maxSpeed`, is the cohesion heading
      brought to `maxSpeed` and reversed. */
  lemma SeparationMirrorsCohesion(flock: seq<Boid>, i: nat, j: nat, root: real -> real)
    requires IsRoot(root) && i < |flock| && j < |flock| && ClosePair(flock, i, j, root)
    ensures SetMag(Heading(Separation, flock, i, root), flock[i].maxSpeed, root) ==
      Scale(SetMag(Heading(Cohesion, flock, i, root), flock[i].maxSpeed, root), -1.0)
  {
    var p, q := flock[i].position, flock[j].position;
    SoleHeading(Cohesion, flock, i, j, root);
    SoleSeparationHeading(flock, i, j, root);
    MirroredOffsets(p, q, Dist(p, q, root), Heading(Separation, flock, i, root), flock[i].maxSpeed, root);
  }

  /** The offset away from `q`, divided by the distance, and the offset
      towards it come out of `setMag` as opposites. */
  lemma MirroredOffsets(p: Vec, q: Vec, d: real, c: Vec, m: real, root: real -> real)
    requires IsRoot(root) && d == Dist(p, q, root)
    requires c == if d == 0.0 then Sub(p, q) else Div(Sub(p, q), d)
    ensures SetMag(c, m, root) == Scale(SetMag(Sub(q, p), m, root), -1.0)
  {
    var toward := Sub(q, p);
    var away := Sub(p, q);
    assert away == Scale(toward, -1.0);
    OffsetSetMag(away, d, c, m, root);
    SetMagNegate(toward, m, root);
  }

  /** With one neighbour the separation heading is the offset from it,
      divided by the distance unless that is zero. */
  lemma SoleSeparationHeading(flock: seq<Boid>, i: nat, j: nat, root: real -> real)
    requires IsRoot(root) && i < |flock| && j < |flock| && ClosePair(flock, i, j, root)
    ensures var away := Sub(flock[i].position, flock[j].position);
      var d := Dist(flock[i].position, flock[j].position, root);
      Heading(Separation, flock, i, root) == if d == 0.0 then away else Div(away, d)
  {
    SoleHeading(Separation, flock, i, j, root);
  }

  /** Dividing an offset by its non-negative length first does not change
      where `setMag` takes it. */
  lemma OffsetSetMag(v: Vec, d: real, c: Vec, m: real, root: real -> real)
    requires IsRoot(root) && d == root(NormSq(v))
    requires c == if d == 0.0 then v else Div(v, d)
    ensures SetMag(c, m, root) == SetMag(v, m, root)
  {
    if d != 0.0 {
      RootFacts(root, NormSq(v));
      DivIsScale(v, d);
      DivSign(1.0, d);
      SetMagPositiveScale(v, 1.0 / d, m, root);
    }
  }

  /** A resting boid whose only neighbour is a resting boid closer than 50
      gets no acceleration: alignment sees a neighbour that does not move,
      and cohesion and separation cancel. */
  lemma PairAtRestBalances(flock: seq<Boid>, i: nat, j: nat, root: real -> real)
    requires IsRoot(root) && i < |flock| && j < |flock|
    requires flock[i].velocity == Zero && flock[j].velocity == Zero
    requires ClosePair(flock, i, j, root)
    ensures Steer(Alignment, flock, i, root) == Zero
    ensures Add(Steer(Cohesion, flock, i, root), Steer(Separation, flock, i, root)) == Zero
    ensures FlockBoids(flock, i, None, root).acceleration == Zero
  {
    var b := flock[i];
    SoleHeading(Alignment, flock, i, j, root);
    SoleHeading(Cohesion, flock, i, j, root);
    SoleHeading(Separation, flock, i, j, root);
    var aligned := SetMag(Heading(Alignment, flock, i, root), b.maxSpeed, root);
    SteerWithNeighbours(Alignment, flock, i, root);
    SubZeroVector(aligned, b.velocity);
    LimitKeepsZero(Sub(aligned, b.velocity), b.maxForce, root);
    var toward := SetMag(Heading(Cohesion, flock, i, root), b.maxSpeed, root);
    SeparationMirrorsCohesion(flock, i, j, root);
    SteerWithNeighbours(Cohesion, flock, i, root);
    SteerWithNeighbours(Separation, flock, i, root);
    SubZeroVector(toward, b.velocity);
    SubZeroVector(Scale(toward, -1.0), b.velocity);
    LimitNegate(toward, b.maxForce, root);
    Opposites(Limit(toward, b.maxForce, root));
  }

  lemma Opposites(v: Vec)
    ensures Add(v, Scale(v, -1.0)) == Zero
    ensures Add(Add(Zero, v), Scale(v, -1.0)) == Zero
  {
  }

  // ---------------------------------------------------------------------------
  // A flock that keeps still
  // ---------------------------------------------------------------------------

  /** Boid `i` is at rest inside the canvas, its audio target is the zero
      vector, and the forces on it add up to nothing. */
  predicate Settled(flock: seq<Boid>, i: nat, target: Vec, canvas: Canvas, root: real -> real)
    requires IsRoot(root) && i < |flock|
  {
    var b := flock[i];
    b.velocity == Zero && b.acceleration == Zero && target == Zero
    && 0.0 <= b.position.x <= canvas.width && 0.0 <= b.position.y <= canvas.height
    && FlockBoids(flock, i, None, root).acceleration == Zero
  }

  /** The step of a settled boid changes nothing. */
  lemma SettledStep(flock: seq<Boid>, i: nat, target: Vec, canvas: Canvas, root: real -> real)
    requires IsRoot(root) && i < |flock| && Settled(flock, i, target, canvas, root)
    ensures StepBoid(flock, i, None, target, canvas, root) == flock
  {
    var b := flock[i];
    var wrapped := flock[i := b.(position := Edge(b.position, canvas))];
    var a := FlockBoids(wrapped, i, None, root).acceleration;
    StepShape(flock, i, None, target, canvas, root);
    InsideStays(flock, i, canvas);
    StillParts(b.position, b.velocity, a, target, b.maxSpeed, root);
    Reassembled(flock, i, Boid(Add(b.position, b.velocity), AudioBias(Limit(Add(b.velocity, a), b.maxSpeed, root), target),
                               a, b.maxForce, b.maxSpeed, b.behavior));
  }

  /** Wrapping a boid inside the canvas hands on the same flock. */
  lemma InsideStays(flock: seq<Boid>, i: nat, canvas: Canvas)
    requires i < |flock|
    requires 0.0 <= flock[i].position.x <= canvas.width && 0.0 <= flock[i].position.y <= canvas.height
    ensures flock[i := flock[i].(position := Edge(flock[i].position, canvas))] == flock
  {
  }

  /** At rest, with no force and no audio pull, position and velocity stay. */
  lemma StillParts(p: Vec, v: Vec, a: Vec, t: Vec, m: real, root: real -> real)
    requires IsRoot(root) && v == Zero && a == Zero && t == Zero
    ensures Add(p, v) == p
    ensures AudioBias(Limit(Add(v, a), m, root), t) == v
  {
    AddZeroVector(p, v);
    AddZeroVector(v, a);
    LimitKeepsZero(Add(v, a), m, root);
    BiasTowardItself(v, t);
  }

  /** Writing back a boid equal to the one in place changes nothing. */
  lemma Reassembled(flock: seq<Boid>, i: nat, c: Boid)
    requires i < |flock| && c == flock[i]
    ensures flock[i := c] == flock
  {
  }

  /** A flock of settled boids is a fixed point of the frame. */
  lemma SettledFlockStays(flock: seq<Boid>, targets: seq<Vec>, canvas: Canvas, root: real -> real)
    requires IsRoot(root) && |targets| == |flock|
    requires forall i :: 0 <= i < |flock| ==> Settled(flock, i, targets[i], canvas, root)
    ensures Frame(flock, None, targets, canvas, root) == flock
  {
    SettledSteps(flock, targets, canvas, root);
    LoopStill(flock, 0, DrawStep(None, targets, canvas, root));
  }

  /** Every pass of `draw`'s loop body over a settled flock hands it on. */
  lemma SettledSteps(flock: seq<Boid>, targets: seq<Vec>, canvas: Canvas, root: real -> real)
    requires IsRoot(root) && |targets| == |flock|
    requires forall i :: 0 <= i < |flock| ==> Settled(flock, i, targets[i], canvas, root)
    ensures forall j :: 0 <= j < |flock| ==> DrawStep(None, targets, canvas, root)(flock, j) == flock
  {
    forall j | 0 <= j < |flock|
      ensures DrawStep(None, targets, canvas, root)(flock, j) == flock
    {
      SettledPass(flock, j, targets, canvas, root);
    }
  }

  /** The pass of `draw`'s loop body for a settled boid hands the flock on. */
  lemma SettledPass(flock: seq<Boid>, j: nat, targets: seq<Vec>, canvas: Canvas, root: real -> real)
    requires IsRoot(root) && j < |flock| && |targets| == |flock|
    requires Settled(flock, j, targets[j], canvas, root)
    ensures DrawStep(None, targets, canvas, root)(flock, j) == flock
  {
    DrawStepAt(None, targets, canvas, flock, j, root);
    SettledStep(flock, j, targets[j], canvas, root);
  }

  // ---------------------------------------------------------------------------
  // The three-boid flock
  // ---------------------------------------------------------------------------

  function AtRest(x: real, y: real): Boid {
    Boid(Vec(x, y), Zero, Zero, 0.5, 5.0, Normal)
  }

  /** Three boids at rest with `maxSpeed` 5 and `maxForce` 0.5: a close pair
      about 14 apart and a third boid more than 250 from both. */
  const Trio := [AtRest(0.0, 0.0), AtRest(10.0, 10.0), AtRest(200.0, 200.0)]

  /** No audio pull: each target is the boid's own (zero) velocity. */
  const Still := [Zero, Zero, Zero]

  /** `p` and `q` are closer than `radius`, compared without a root. */
  predicate Near(p: Vec, q: Vec, radius: real) {
    DistSq(p, q) < radius * radius
  }

  /** `p` and `q` are at least `radius` apart. */
  predicate Apart(p: Vec, q: Vec, radius: real) {
    radius * radius <= DistSq(p, q)
  }

  /** Boids at least `radius` apart are not neighbours. */
  lemma FarApart(flock: seq<Boid>, i: nat, j: nat, radius: real, root: real -> real)
    requires IsRoot(root) && i < |flock| && j < |flock| && 0.0 <= radius
    requires Apart(flock[i].position, flock[j].position, radius)
    ensures !IsNeighbour(flock, i, j, radius, root)
  {
    NeighbourBySquares(flock, i, j, radius, root);
  }

  /** Two different boids closer than `radius` are neighbours. */
  lemma CloseBy(flock: seq<Boid>, i: nat, j: nat, radius: real, root: real -> real)
    requires IsRoot(root) && i < |flock| && j < |flock| && 0.0 <= radius && i != j
    requires Near(flock[i].position, flock[j].position, radius)
    ensures IsNeighbour(flock, i, j, radius, root)
  {
    NeighbourBySquares(flock, i, j, radius, root);
  }

  /** The gaps within the trio: the pair is closer than 50, the third boid
      is at least 100 from both. */
  lemma TrioGaps()
    ensures Near(Trio[0].position, Trio[1].position, 50.0)
    ensures Near(Trio[1].position, Trio[0].position, 50.0)
    ensures Apart(Trio[0].position, Trio[2].position, 100.0)
    ensures Apart(Trio[1].position, Trio[2].position, 100.0)
    ensures Apart(Trio[2].position, Trio[0].position, 100.0)
    ensures Apart(Trio[2].position, Trio[1].position, 100.0)
  {
  }

  lemma FirstPair(root: real -> real)
    requires IsRoot(root)
    ensures ClosePair(Trio, 0, 1, root)
  {
    TrioGaps();
    CloseBy(Trio, 0, 1, 50.0, root);
    FarApart(Trio, 0, 2, 100.0, root);
  }

  lemma SecondPair(root: real -> real)
    requires IsRoot(root)
    ensures ClosePair(Trio, 1, 0, root)
  {
    TrioGaps();
    CloseBy(Trio, 1, 0, 50.0, root);
    FarApart(Trio, 1, 2, 100.0, root);
  }

  lemma ThirdAlone(root: real -> real)
    requires IsRoot(root)
    ensures forall j :: 0 <= j < |Trio| ==> !IsNeighbour(Trio, 2, j, Radius(Alignment), root)
  {
    TrioGaps();
    FarApart(Trio, 2, 0, 100.0, root);
    FarApart(Trio, 2, 1, 100.0, root);
  }

  /** Cohesion alone would pull the first boid towards the second. */
  lemma TrioCohesionPulls(root: real -> real)
    requires IsRoot(root)
    ensures 0.0 < Dot(Steer(Cohesion, Trio, 0, root), Sub(Trio[1].position, Trio[0].position))
  {
    FirstPair(root);
    SoleHeading(Cohesion, Trio, 0, 1, root);
    SteerAtRest(Cohesion, Trio, 0, root);
  }

  /** Three resting boids: 0 and 1 a close pair, 2 with nobody within 100. */
  predicate PairAndLoner(flock: seq<Boid>, root: real -> real)
    requires IsRoot(root)
  {
    |flock| == 3
    && (forall k :: 0 <= k < |flock| ==> flock[k].velocity == Zero)
    && ClosePair(flock, 0, 1, root) && ClosePair(flock, 1, 0, root)
    && forall j :: 0 <= j < |flock| ==> !IsNeighbour(flock, 2, j, Radius(Alignment), root)
  }

  /** In such a flock no boid accelerates: the pair balances, the loner coasts. */
  lemma PairAndLonerForces(flock: seq<Boid>, root: real -> real)
    requires IsRoot(root) && PairAndLoner(flock, root)
    ensures forall i :: 0 <= i < |flock| ==> FlockBoids(flock, i, None, root).acceleration == Zero
  {
    forall i | 0 <= i < |flock|
      ensures FlockBoids(flock, i, None, root).acceleration == Zero
    {
      if i < 2 {
        PairMemberStill(flock, i, 1 - i, root);
      } else {
        LoneBoidCoasts(flock, i, root);
      }
    }
  }

  /** The acceleration half of `PairAtRestBalances`. */
  lemma PairMemberStill(flock: seq<Boid>, i: nat, j: nat, root: real -> real)
    requires IsRoot(root) && i < |flock| && j < |flock|
    requires flock[i].velocity == Zero && flock[j].velocity == Zero
    requires ClosePair(flock, i, j, root)
    ensures FlockBoids(flock, i, None, root).acceleration == Zero
  {
    PairAtRestBalances(flock, i, j, root);
  }

  /** But separation cancels it, and no boid of the trio accelerates. */
  lemma TrioForces(root: real -> real)
    requires IsRoot(root)
    ensures forall i :: 0 <= i < |Trio| ==> FlockBoids(Trio, i, None, root).acceleration == Zero
  {
    FirstPair(root);
    SecondPair(root);
    ThirdAlone(root);
    PairAndLonerForces(Trio, root);
  }

  /** With no obstacle and no audio pull the trio is a fixed point of the
      frame: the close pair does not draw together and the far boid stays. */
  lemma TrioStaysPut(root: real -> real)
    requires IsRoot(root)
    ensures Frame(Trio, None, Still, SketchCanvas, root) == Trio
  {
    TrioSettled(root);
    SettledFlockStays(Trio, Still, SketchCanvas, root);
  }

  /** Every boid of the trio is settled. */
  lemma TrioSettled(root: real -> real)
    requires IsRoot(root)
    ensures forall i :: 0 <= i < |Trio| ==> Settled(Trio, i, Still[i], SketchCanvas, root)
  {
    TrioForces(root);
  }
}

=== FILE: steering.dfy ===
/** The three neighbour rules of sketch.js: `alignBoid`, `cohesionBoids` and
    `separationBoids`.

    All three walk the whole flock, keep the boids other than `b` that lie
    strictly inside the rule's perception radius, and add up one vector per
    such neighbour.  With no neighbour the rule returns the zero vector and
    never divides; otherwise the mean is turned into a desired velocity of
    length `maxSpeed`, the current velocity is subtracted and the difference
    is limited to `maxForce`.  The flock is a sequence and `b` is `flock[i]`;
    the identity test `other != b` of sketch.js is the index test `j != i`. */
module Steering {
  import opened Vectors
  import opened Boids

  datatype Rule = Alignment | Cohesion | Separation

  /** The perception radius of each rule. */
  function Radius(rule: Rule): real {
    match rule
    case Alignment => 100.0
    case Cohesion => 60.0
    case Separation => 50.0
  }

  /** Boid `j` is a neighbour of boid `i` within `radius`. */
  predicate IsNeighbour(flock: seq<Boid>, i: nat, j: nat, radius: real, root: real -> real)
    requires IsRoot(root) && i < |flock| && j < |flock|
  {
    j != i && Dist(flock[i].position, flock[j].position, root) < radius
  }

  /** The radius test on distances is the same test on squared distances, so
      no square root is needed to decide who is a neighbour. */
  lemma NeighbourBySquares(flock: seq<Boid>, i: nat, j: nat, radius: real, root: real -> real)
    requires IsRoot(root) && i < |flock| && j < |flock| && 0.0 <= radius
    ensures IsNeighbour(flock, i, j, radius, root) <==>
      j != i && DistSq(flock[i].position, flock[j].position) < radius * radius
  {
    NormSqNonNeg(Sub(flock[i].position, flock[j].position));
    RootBelow(root, DistSq(flock[i].position, flock[j].position), radius);
  }

  /** What one neighbour adds to the running sum: its velocity for
      alignment, its position for cohesion, and for separation the unit
      vector pointing from it to `b`.  p5's `div(0)` leaves a vector
      unchanged, so a neighbour at the same position adds the zero vector. */
  function Contribution(rule: Rule, b: Boid, other: Boid, root: real -> real): (c: Vec)
    requires IsRoot(root)
    ensures rule == Alignment ==> c == other.velocity
    ensures rule == Cohesion ==> c == other.position
    ensures rule == Separation && b.position == other.position ==> c == Zero
    ensures rule == Separation && b.position != other.position ==>
      NormSq(c) == 1.0
      && Cross(c, Sub(b.position, other.position)) == 0.0
      && 0.0 < Dot(c, Sub(b.position, other.position))
  {
    match rule
    case Alignment => other.velocity
    case Cohesion => other.position
    case Separation => AwayFrom(b.position, other.position, root)
  }

  /** The separation term of a neighbour at `q` for a boid at `p`: the offset
      divided by the distance, left alone when the distance is zero. */
  function AwayFrom(p: Vec, q: Vec, root: real -> real): (c: Vec)
    requires IsRoot(root)
    ensures p == q ==> c == Zero
    ensures p != q ==> NormSq(c) == 1.0 && Cross(c, Sub(p, q)) == 0.0 && 0.0 < Dot(c, Sub(p, q))
  {
    var d := Dist(p, q, root);
    var c := if d == 0.0 then Sub(p, q) else Div(Sub(p, q), d);
    AwayTerm(p, q, d, c, root);
    c
  }

  lemma AwayTerm(p: Vec, q: Vec, d: real, c: Vec, root: real -> real)
    requires IsRoot(root) && d == Dist(p, q, root)
    requires c == if d == 0.0 then Sub(p, q) else Div(Sub(p, q), d)
    ensures p == q ==> c == Zero
    ensures p != q ==> NormSq(c) == 1.0 && Cross(c, Sub(p, q)) == 0.0 && 0.0 < Dot(c, Sub(p, q))
  {
    SubZeroIff(p, q);
    UnitOffset(Sub(p, q), d, c, root);
  }

  /** An offset divided by its length (and left alone when that length is
      zero) is the zero vector or the unit vector along the offset. */
  lemma UnitOffset(diff: Vec, d: real, c: Vec, root: real -> real)
    requires IsRoot(root) && d == root(NormSq(diff))
    requires c == if d == 0.0 then diff else Div(diff, d)
    ensures diff == Zero ==> c == Zero
    ensures diff != Zero ==> NormSq(c) == 1.0 && Cross(c, diff) == 0.0 && 0.0 < Dot(c, diff)
  {
    if diff == Zero {
      RootOfSquare(root, 0.0, 0.0);
    } else {
      NormSqPositive(diff);
      PositiveRoot(root, NormSq(diff));
      DivIsScale(diff, d);
      DivSign(1.0, d);
      NormSqScale(diff, 1.0 / d);
      assert (1.0 / d) * (1.0 / d) * (d * d) == 1.0;
      DotWithMultiple(diff, 1.0 / d);
    }
  }

  /** The number of neighbours of boid `i` among the first `n` boids. */
  function NeighbourCount(flock: seq<Boid>, i: nat, n: nat, radius: real, root: real -> real): (c: nat)
    requires IsRoot(root) && i < |flock| && n <= |flock|
    ensures c <= n
    ensures c == 0 <==> forall j :: 0 <= j < n ==> !IsNeighbour(flock, i, j, radius, root)
  {
    if n == 0 then 0
    else
      NeighbourCount(flock, i, n - 1, radius, root)
      + (if IsNeighbour(flock, i, n - 1, radius, root) then 1 else 0)
  }

  /** The sum of the contributions of the neighbours among the first `n` boids. */
  function NeighbourSum(flock: seq<Boid>, i: nat, n: nat, rule: Rule, root: real -> real): Vec
    requires IsRoot(root) && i < |flock| && n <= |flock|
  {
    if n == 0 then Zero
    else
      var s := NeighbourSum(flock, i, n - 1, rule, root);
      if IsNeighbour(flock, i, n - 1, Radius(rule), root)
      then Add(s, Contribution(rule, flock[i], flock[n - 1], root))
      else s
  }

  /** Shorthands for the whole flock. */
  function Count(rule: Rule, flock: seq<Boid>, i: nat, root: real -> real): nat
    requires IsRoot(root) && i < |flock|
  {
    NeighbourCount(flock, i, |flock|, Radius(rule), root)
  }

  function Sum(rule: Rule, flock: seq<Boid>, i: nat, root: real -> real): Vec
    requires IsRoot(root) && i < |flock|
  {
    NeighbourSum(flock, i, |flock|, rule, root)
  }

  /** The direction a rule steers towards once it has neighbours: the mean
      neighbour velocity (alignment), the offset from `b` to the neighbours'
      centre (cohesion), or the mean of the away vectors (separation). */
  function Heading(rule: Rule, flock: seq<Boid>, i: nat, root: real -> real): Vec
    requires IsRoot(root) && i < |flock| && Count(rule, flock, i, root) > 0
  {
    var mean := Div(Sum(rule, flock, i, root), Count(rule, flock, i, root) as real);
    if rule == Cohesion then Sub(mean, flock[i].position) else mean
  }

  /** The heading is the mean of the contributions: scaled back by the
      neighbour count it gives their sum (for cohesion once `b`'s own
      position is added back). */
  lemma HeadingIsMean(rule: Rule, flock: seq<Boid>, i: nat, root: real -> real)
    requires IsRoot(root) && i < |flock| && Count(rule, flock, i, root) > 0
    ensures var n := Count(rule, flock, i, root) as real;
      var h := Heading(rule, flock, i, root);
      (rule != Cohesion ==> Scale(h, n) == Sum(rule, flock, i, root))
      && (rule == Cohesion ==> Scale(Add(h, flock[i].position), n) == Sum(rule, flock, i, root))
  {
    DivScaleBack(Sum(rule, flock, i, root), Count(rule, flock, i, root) as real);
  }

  /** The steering force of one rule on boid `i`. */
  function Steer(rule: Rule, flock: seq<Boid>, i: nat, root: real -> real): (r: Vec)
    requires IsRoot(root) && i < |flock|
    ensures Within(r, flock[i].maxForce)
    ensures (forall j :: 0 <= j < |flock| ==> !IsNeighbour(flock, i, j, Radius(rule), root)) ==> r == Zero
  {
    var b := flock[i];
    if Count(rule, flock, i, root) == 0 then
      WithinZero(b.maxForce);
      Zero
    else
      Limit(Sub(SetMag(Heading(rule, flock, i, root), b.maxSpeed, root), b.velocity), b.maxForce, root)
  }

  /** With a neighbour, the force is the desired velocity minus the current
      one, limited. */
  lemma SteerWithNeighbours(rule: Rule, flock: seq<Boid>, i: nat, root: real -> real)
    requires IsRoot(root) && i < |flock| && Count(rule, flock, i, root) > 0
    ensures Steer(rule, flock, i, root) ==
      Limit(Sub(SetMag(Heading(rule, flock, i, root), flock[i].maxSpeed, root), flock[i].velocity), flock[i].maxForce, root)
  {
  }

  /** The force bound of `Steer`, for a caller that names `maxForce`. */
  lemma SteerBounded(rule: Rule, flock: seq<Boid>, i: nat, m: real, root: real -> real)
    requires IsRoot(root) && i < |flock| && m == flock[i].maxForce
    ensures Within(Steer(rule, flock, i, root), m)
  {
  }

  // ---------------------------------------------------------------------------
  // The loop of sketch.js
  // ---------------------------------------------------------------------------

  /** The accumulation loop each rule runs over the flock: a running sum and
      a running count of neighbours, which end as the recursive sum and count. */
  method Tally(rule: Rule, flock: seq<Boid>, i: nat, root: real -> real) returns (steering: Vec, total: nat)
    requires IsRoot(root) && i < |flock|
    ensures total == Count(rule, flock, i, root)
    ensures steering == Sum(rule, flock, i, root)
    ensures total <= |flock|
  {
    steering := Zero;
    total := 0;
    var j := 0;
    while j < |flock|
      invariant j <= |flock|
      invariant total == NeighbourCount(flock, i, j, Radius(rule), root)
      invariant steering == NeighbourSum(flock, i, j, rule, root)
    {
      if IsNeighbour(flock, i, j, Radius(rule), root) {
        steering := Add(steering, Contribution(rule, flock[i], flock[j], root));
        total := total + 1;
      }
      j := j + 1;
    }
  }

  // ---------------------------------------------------------------------------
  // Who counts as a neighbour
  // ---------------------------------------------------------------------------

  /** The neighbours of boid `i` within `radius`, as a set of indices. */
  ghost function NeighbourSet(flock: seq<Boid>, i: nat, n: nat, radius: real, root: real -> real): set<nat>
    requires IsRoot(root) && i < |flock| && n <= |flock|
  {
    set j: nat | j < n && IsNeighbour(flock, i, j, radius, root)
  }

  /** The count a rule divides by is the number of distinct neighbours. */
  lemma {:induction false} CountIsSetSize(flock: seq<Boid>, i: nat, n: nat, radius: real, root: real -> real)
    requires IsRoot(root) && i < |flock| && n <= |flock|
    ensures NeighbourCount(flock, i, n, radius, root) == |NeighbourSet(flock, i, n, radius, root)|
    ensures i !in NeighbourSet(flock, i, n, radius, root)
  {
    if n == 0 {
      assert NeighbourSet(flock, i, n, radius, root) == {};
    } else {
      CountIsSetSize(flock, i, n - 1, radius, root);
      NeighbourSetStep(flock, i, n, radius, root);
    }
  }

  /** Looking at one more boid adds it to the neighbours exactly when it is one. */
  lemma NeighbourSetStep(flock: seq<Boid>, i: nat, n: nat, radius: real, root: real -> real)
    requires IsRoot(root) && i < |flock| && 0 < n <= |flock|
    ensures IsNeighbour(flock, i, n - 1, radius, root) ==>
      NeighbourSet(flock, i, n, radius, root) == NeighbourSet(flock, i, n - 1, radius, root) + {n - 1}
    ensures !IsNeighbour(flock, i, n - 1, radius, root) ==>
      NeighbourSet(flock, i, n, radius, root) == NeighbourSet(flock, i, n - 1, radius, root)
    ensures n - 1 !in NeighbourSet(flock, i, n - 1, radius, root)
  {
  }

  /** A smaller radius never finds more neighbours: whoever is close enough to
      repel (50) is also close enough to attract (60) and to align with (100). */
  lemma {:induction false} CountMonotoneInRadius(flock: seq<Boid>, i: nat, n: nat, r1: real, r2: real, root: real -> real)
    requires IsRoot(root) && i < |flock| && n <= |flock| && r1 <= r2
    ensures NeighbourCount(flock, i, n, r1, root) <= NeighbourCount(flock, i, n, r2, root)
  {
    if n > 0 {
      CountMonotoneInRadius(flock, i, n - 1, r1, r2, root);
    }
  }

  lemma RadiiNest(flock: seq<Boid>, i: nat, root: real -> real)
    requires IsRoot(root) && i < |flock|
    ensures Count(Separation, flock, i, root) <= Count(Cohesion, flock, i, root) <= Count(Alignment, flock, i, root)
  {
    CountMonotoneInRadius(flock, i, |flock|, 50.0, 60.0, root);
    CountMonotoneInRadius(flock, i, |flock|, 60.0, 100.0, root);
  }

  /** With exactly one neighbour `j`, the loop counts one and sums that
      neighbour's contribution alone. */
  lemma {:induction false} SoleNeighbourTally(flock: seq<Boid>, i: nat, j: nat, n: nat, rule: Rule, root: real -> real)
    requires IsRoot(root) && i < |flock| && j < |flock| && n <= |flock|
    requires forall k :: 0 <= k < |flock| ==> (IsNeighbour(flock, i, k, Radius(rule), root) <==> k == j)
    ensures NeighbourCount(flock, i, n, Radius(rule), root) == (if j < n then 1 else 0)
    ensures NeighbourSum(flock, i, n, rule, root) ==
      (if j < n then Contribution(rule, flock[i], flock[j], root) else Zero)
  {
    if n > 0 {
      SoleNeighbourTally(flock, i, j, n - 1, rule, root);
      assert IsNeighbour(flock, i, n - 1, Radius(rule), root) <==> n - 1 == j;
    }
  }

  // ---------------------------------------------------------------------------
  // What the force depends on
  // ---------------------------------------------------------------------------

  /** Boid `j` is a neighbour of `i` in `f` exactly when it is one in `g`,
      and then contributes the same vector in both. */
  predicate AgreesAt(rule: Rule, f: seq<Boid>, g: seq<Boid>, i: nat, j: nat, root: real -> real)
    requires IsRoot(root) && i < |f| && i < |g| && j < |f| && j < |g|
  {
    (IsNeighbour(f, i, j, Radius(rule), root) <==> IsNeighbour(g, i, j, Radius(rule), root))
    && (IsNeighbour(f, i, j, Radius(rule), root) ==>
          Contribution(rule, f[i], f[j], root) == Contribution(rule, g[i], g[j], root))
  }

  /** Two flocks that agree, boid by boid, on who is a neighbour of `i` and
      on what each neighbour contributes give the same sum and count. */
  lemma {:induction false} TalliesAgree(rule: Rule, f: seq<Boid>, g: seq<Boid>, i: nat, n: nat, root: real -> real)
    requires IsRoot(root) && i < |f| && i < |g| && n <= |f| && n <= |g|
    requires forall j :: 0 <= j < n ==> AgreesAt(rule, f, g, i, j, root)
    ensures NeighbourCount(f, i, n, Radius(rule), root) == NeighbourCount(g, i, n, Radius(rule), root)
    ensures NeighbourSum(f, i, n, rule, root) == NeighbourSum(g, i, n, rule, root)
  {
    if n > 0 {
      TalliesAgree(rule, f, g, i, n - 1, root);
      assert AgreesAt(rule, f, g, i, n - 1, root);
    }
  }

  /** Same positions and velocities. */
  predicate SameKinematics(f: seq<Boid>, g: seq<Boid>) {
    |f| == |g| && forall j :: 0 <= j < |f| ==> f[j].position == g[j].position && f[j].velocity == g[j].velocity
  }

  /** A rule reads only positions and velocities of the flock and the two
      limits of `b`: accelerations, behaviours and the other boids' limits
      play no part. */
  lemma SteerReadsKinematics(rule: Rule, f: seq<Boid>, g: seq<Boid>, i: nat, root: real -> real)
    requires IsRoot(root) && i < |f| && SameKinematics(f, g)
    requires f[i].maxSpeed == g[i].maxSpeed && f[i].maxForce == g[i].maxForce
    ensures Steer(rule, f, i, root) == Steer(rule, g, i, root)
  {
    forall j | 0 <= j < |f|
      ensures AgreesAt(rule, f, g, i, j, root)
    {
    }
    TalliesAgree(rule, f, g, i, |f|, root);
  }

  /** Replacing a boid that is out of range both before and after the change
      does not change the force on `b`. */
  lemma FarBoidIgnored(rule: Rule, flock: seq<Boid>, i: nat, j: nat, other: Boid, root: real -> real)
    requires IsRoot(root) && i < |flock| && j < |flock| && j != i
    requires !IsNeighbour(flock, i, j, Radius(rule), root)
    requires !IsNeighbour(flock[j := other], i, j, Radius(rule), root)
    ensures Steer(rule, flock[j := other], i, root) == Steer(rule, flock, i, root)
  {
    var g := flock[j := other];
    forall k | 0 <= k < |flock|
      ensures AgreesAt(rule, flock, g, i, k, root)
    {
    }
    TalliesAgree(rule, flock, g, i, |flock|, root);
  }

  // ---------------------------------------------------------------------------
  // Which way the force points
  // ---------------------------------------------------------------------------

  /** For a boid at rest with neighbours, each rule pushes along its heading:
      alignment along the neighbours' mean velocity, cohesion towards their
      centre, separation along the mean away vector. */
  lemma SteerAtRest(rule: Rule, flock: seq<Boid>, i: nat, root: real -> real)
    requires IsRoot(root) && i < |flock|
    requires flock[i].velocity == Zero && 0.0 < flock[i].maxSpeed && 0.0 < flock[i].maxForce
    requires Count(rule, flock, i, root) > 0 && Heading(rule, flock, i, root) != Zero
    ensures exists k :: 0.0 < k && Steer(rule, flock, i, root) == Scale(Heading(rule, flock, i, root), k)
    ensures 0.0 < Dot(Steer(rule, flock, i, root), Heading(rule, flock, i, root))
  {
    var b := flock[i];
    var h := Heading(rule, flock, i, root);
    SetMagDirection(h, b.maxSpeed, root);
    var k1 :| SetMag(h, b.maxSpeed, root) == Scale(h, k1) && 0.0 < k1;
    var desired := Scale(h, k1);
    assert Sub(desired, b.velocity) == desired;
    ScaleNonZero(h, k1);
    var lim := Limit(desired, b.maxForce, root);
    assert Steer(rule, flock, i, root) == lim;
    LimitScales(desired, b.maxForce, root);
    var k2 :| 0.0 <= k2 <= 1.0 && (0.0 < b.maxForce ==> 0.0 < k2) && lim == Scale(desired, k2);
    ScaleScale(h, k1, k2);
    MulPos(k1, k2);
    DotWithMultiple(h, k1 * k2);
  }
}

=== FILE: vectors.dfy ===
/** Plane vectors over exact reals: the part of p5.Vector that the flocking
    rules use.

    p5 measures lengths with a floating-point square root.  Here the square
    root is a parameter `root` constrained by `IsRoot`, and `SetMag`, `Limit`
    and `Dist` are written the way p5 computes them on top of it, so their
    contracts are proved rather than assumed.

    `Zero` is a literal, and Dafny evaluates a function applied to literal
    arguments.  In a proof that has unfolded a whole step of a boid, a fact
    such as `Add(p, Zero) == p` then keeps producing new literal terms for
    the solver to evaluate, and the proof can run out of resource.  The
    one-step lemmas `AddZeroVector`, `SubZeroVector`, `LimitKeepsZero`,
    `NegateZero` and `SetMagZero` state such facts over a plain variable
    `v == Zero` instead, so that the large proofs only apply them.  The
    same reason, for literal vectors and flocks, explains `ZeroSum` and
    `TooFast` in `Flocking` and `Opposites` and `Reassembled` in
    `Scenarios`. */
module Vectors {
  datatype Vec = Vec(x: real, y: real)
  const Zero := Vec(0.0, 0.0)
  function Add(a: Vec, b: Vec): Vec { Vec(a.x + b.x, a.y + b.y) }
  function Sub(a: Vec, b: Vec): Vec { Vec(a.x - b.x, a.y - b.y) }
  function Scale(v: Vec, k: real): Vec { Vec(k * v.x, k * v.y) }
  /** p5's `div` by a scalar; every caller proves the divisor is non-zero. */
  function Div(v: Vec, k: real): Vec requires k != 0.0 { Vec(v.x / k, v.y / k) }
  function Dot(a: Vec, b: Vec): real { a.x * b.x + a.y * b.y }
  function Cross(a: Vec, b: Vec): real { a.x * b.y - a.y * b.x }

  /** Squared length (p5's `magSq`). */
  function NormSq(v: Vec): real { v.x * v.x + v.y * v.y }

  /** `v` is at most `m` long (for a non-negative `m`), stated without a root. */
  predicate Within(v: Vec, m: real) { NormSq(v) <= m * m }

  lemma WithinZero(m: real)
    ensures Within(Zero, m)
  {
    SquareNonNeg(m);
  }

  /** Squared distance between two points. */
  function DistSq(a: Vec, b: Vec): real { NormSq(Sub(a, b)) }

  /** `root` is the non-negative square root on the non-negative reals. */
  ghost predicate IsRoot(root: real -> real) {
    forall x :: RootAt(root, x)
  }

  /** `root(x)` is the non-negative square root of `x`, when `x` has one.
      Proofs ask for this fact at one point at a time through `RootFacts`. */
  ghost predicate RootAt(root: real -> real, x: real) {
    0.0 <= x ==> 0.0 <= root(x) && root(x) * root(x) == x
  }

  lemma RootFacts(root: real -> real, x: real)
    requires IsRoot(root) && 0.0 <= x
    ensures 0.0 <= root(x) && root(x) * root(x) == x
  {
    assert RootAt(root, x);
  }

  /** The root of a positive number is positive. */
  lemma PositiveRoot(root: real -> real, x: real)
    requires IsRoot(root) && 0.0 < x
    ensures 0.0 < root(x) && root(x) * root(x) == x
  {
    RootFacts(root, x);
  }

  /** p5's `dist`: the length of the difference of two points. */
  function Dist(a: Vec, b: Vec, root: real -> real): real
    requires IsRoot(root)
  {
    root(DistSq(a, b))
  }

  /** `Dist` is the non-negative number whose square is the squared distance. */
  lemma DistSquared(a: Vec, b: Vec, root: real -> real)
    requires IsRoot(root)
    ensures 0.0 <= Dist(a, b, root)
    ensures Dist(a, b, root) * Dist(a, b, root) == DistSq(a, b)
  {
    NormSqNonNeg(Sub(a, b));
    RootFacts(root, DistSq(a, b));
  }

  // ---------------------------------------------------------------------------
  // Algebra used by the proofs
  // ---------------------------------------------------------------------------

  lemma NormSqNonNeg(v: Vec) ensures 0.0 <= NormSq(v) {}

  lemma SquareNonNeg(a: real) ensures 0.0 <= a * a {}

  lemma NormSqPositive(v: Vec)
    requires v != Zero
    ensures 0.0 < NormSq(v)
  {
    if v.x != 0.0 {
      var r := 1.0 / v.x;
      assert (v.x * v.x) * (r * r) == 1.0;
      assert 0.0 <= v.y * v.y;
    } else {
      var r := 1.0 / v.y;
      assert (v.y * v.y) * (r * r) == 1.0;
      assert 0.0 <= v.x * v.x;
    }
  }

  lemma NormSqScale(v: Vec, k: real)
    ensures NormSq(Scale(v, k)) == k * k * NormSq(v)
  {}

  lemma ScaleToLength(v: Vec, m: real, len: real)
    requires 0.0 < len && len * len == NormSq(v)
    ensures NormSq(Scale(v, m / len)) == m * m
  {
    var k := m / len;
    assert k * len == m;
    NormSqScale(v, k);
    assert k * k * (len * len) == (k * len) * (k * len);
  }

  lemma DivSign(a: real, b: real)
    requires 0.0 < b
    ensures 0.0 <= a ==> 0.0 <= a / b
    ensures a <= 0.0 ==> a / b <= 0.0
    ensures 0.0 < a ==> 0.0 < a / b
    ensures a < 0.0 ==> a / b < 0.0
  {}

  // ---------------------------------------------------------------------------
  // p5.Vector magnitude operations
  // ---------------------------------------------------------------------------

  /** p5's `setMag(m)`: normalize (a zero vector stays zero), then scale by `m`.
      The result is a multiple of `v` whose sign follows `m`, of length |m|. */
  function SetMag(v: Vec, m: real, root: real -> real): (r: Vec)
    requires IsRoot(root)
    ensures v == Zero ==> r == Zero
    ensures v != Zero ==> NormSq(r) == m * m
  {
    if v == Zero then
      v
    else
      NormSqPositive(v);
      var len := root(NormSq(v));
      PositiveRoot(root, NormSq(v));
      ScaleToLength(v, m, len);
      Scale(v, m / len)
  }

  /** The factor `limit` shrinks by lies in [0, 1]. */
  lemma ShrinkFactor(root: real -> real, m: real, n: real)
    requires IsRoot(root)
    requires 0.0 <= m && m * m < n
    ensures 0.0 < root(n) && root(n) * root(n) == n
    ensures 0.0 <= m / root(n) <= 1.0
    ensures 0.0 < m ==> 0.0 < m / root(n)
  {
    var len := root(n);
    assert 0.0 <= m * m;
    PositiveRoot(root, n);
    DivSign(m, len);
    if m >= len {
      MulLe(len, m, m);
      MulLe(len, m, len);
    }
    var k := m / len;
    assert k * len == m;
    if k > 1.0 {
      MulLt(1.0, k, len);
    }
  }

  lemma MulLe(a: real, b: real, c: real)
    requires a <= b && 0.0 <= c
    ensures a * c <= b * c
  {
    assert (b - a) * c == b * c - a * c;
    assert 0.0 <= (b - a) * c;
  }

  lemma MulLt(a: real, b: real, c: real)
    requires a < b && 0.0 < c
    ensures a * c < b * c
  {
    assert (b - a) * c == b * c - a * c;
    assert 0.0 < (b - a) * c;
  }

  /** p5's `limit(m)`: a vector longer than `m` is scaled down to length `m`;
      one within the bound is returned unchanged. */
  function Limit(v: Vec, m: real, root: real -> real): (r: Vec)
    requires IsRoot(root)
    ensures Within(r, m)
    ensures Within(v, m) ==> r == v
    ensures !Within(v, m) ==> NormSq(r) == m * m
  {
    if Within(v, m) then
      v
    else
      var n := NormSq(v);
      var len := root(n);
      SquareNonNeg(m);
      PositiveRoot(root, n);
      ScaleToLength(v, m, len);
      Scale(v, m / len)
  }

  /** `limit` keeps the direction: it scales by a factor in [0, 1], a
      positive one when the bound is positive. */
  lemma LimitScales(v: Vec, m: real, root: real -> real)
    requires IsRoot(root) && 0.0 <= m
    ensures exists k :: 0.0 <= k <= 1.0 && (0.0 < m ==> 0.0 < k) && Limit(v, m, root) == Scale(v, k)
  {
    var n := NormSq(v);
    if !Within(v, m) {
      ShrinkFactor(root, m, n);
      assert Limit(v, m, root) == Scale(v, m / root(n));
    } else {
      assert Limit(v, m, root) == Scale(v, 1.0);
    }
  }

  /** Lagrange's identity in the plane. */
  lemma Lagrange(a: Vec, b: Vec)
    ensures NormSq(a) * NormSq(b) == Dot(a, b) * Dot(a, b) + Cross(a, b) * Cross(a, b)
  {}

  /** A square bounded by the square of a non-negative number bounds the base. */
  lemma SquareLe(d: real, p: real)
    requires 0.0 <= p && d * d <= p * p
    ensures d <= p
  {
    if d > p {
      assert (d - p) * (d + p) == d * d - p * p;
      MulPos(d - p, d + p);
    }
  }

  lemma ScaleScale(v: Vec, a: real, b: real)
    ensures Scale(Scale(v, a), b) == Scale(v, a * b)
  {}

  lemma MulPos(a: real, b: real)
    requires 0.0 < a && 0.0 < b
    ensures 0.0 < a * b
  {}

  lemma MulNonZero(a: real, b: real)
    requires a != 0.0 && b != 0.0
    ensures a * b != 0.0
  {
    assert (a * b) * ((1.0 / a) * (1.0 / b)) == 1.0;
  }

  /** Squaring is strictly monotone on the non-negative reals. */
  lemma SquareLt(s: real, r: real)
    requires 0.0 <= s < r
    ensures s * s < r * r
  {
    MulPos(r - s, r + s);
    assert (r - s) * (r + s) == r * r - s * s;
  }

  lemma ProductLe(a: real, b: real, p: real, q: real)
    requires 0.0 <= a <= p && 0.0 <= b <= q
    ensures a * b <= p * q
  {
    MulLe(a, p, b);
    MulLe(b, q, p);
  }

  /** Cauchy-Schwarz in squared form. */
  lemma DotBound(a: Vec, b: Vec, p: real, q: real)
    requires 0.0 <= p && 0.0 <= q
    requires NormSq(a) <= p * p && NormSq(b) <= q * q
    ensures Dot(a, b) <= p * q
  {
    var d, c := Dot(a, b), Cross(a, b);
    Lagrange(a, b);
    NormSqNonNeg(a);
    NormSqNonNeg(b);
    assert 0.0 <= c * c;
    ProductLe(NormSq(a), NormSq(b), p * p, q * q);
    assert (p * p) * (q * q) == (p * q) * (p * q);
    assert 0.0 <= p * q;
    SquareLe(d, p * q);
  }

  /** The triangle inequality, squared: lengths at most `p` and `q` add up to
      a length at most `r == p + q`. */
  lemma TriangleSq(a: Vec, b: Vec, p: real, q: real, r: real)
    requires 0.0 <= p && 0.0 <= q && r == p + q
    requires Within(a, p) && Within(b, q)
    ensures Within(Add(a, b), r)
  {
    assert NormSq(Add(a, b)) == NormSq(a) + NormSq(b) + 2.0 * Dot(a, b);
    DotBound(a, b, p, q);
    assert r * r == p * p + q * q + 2.0 * (p * q);
  }

  /** The root of a square is its non-negative base. */
  lemma RootOfSquare(root: real -> real, x: real, r: real)
    requires IsRoot(root)
    requires 0.0 <= r && r * r == x
    ensures root(x) == r
  {
    var s := root(x);
    RootFacts(root, x);
    if s < r {
      SquareLt(s, r);
    } else if s > r {
      SquareLt(r, s);
    }
  }

  /** For a non-negative bound, a strict comparison of a root is a strict
      comparison of squares. */
  lemma RootBelow(root: real -> real, x: real, bound: real)
    requires IsRoot(root)
    requires 0.0 <= x && 0.0 <= bound
    ensures root(x) < bound <==> x < bound * bound
  {
    var s := root(x);
    RootFacts(root, x);
    if s < bound {
      SquareLt(s, bound);
    } else {
      MulLe(bound, s, s);
      MulLe(bound, s, bound);
      assert bound * bound <= s * s;
    }
  }

  /** The length of `Scale(v, a)` for `a > 0` is `a` times the length of `v`. */
  lemma RootOfScaled(root: real -> real, v: Vec, c: real, a: real)
    requires IsRoot(root)
    requires 0.0 < a && (c == a || c == -a)
    ensures root(NormSq(Scale(v, c))) == a * root(NormSq(v))
  {
    NormSqNonNeg(v);
    var len := root(NormSq(v));
    RootFacts(root, NormSq(v));
    NormSqScale(v, c);
    assert c * c == a * a;
    assert NormSq(Scale(v, c)) == (a * len) * (a * len);
    MulLe(0.0, a, len);
    RootOfSquare(root, NormSq(Scale(v, c)), a * len);
  }

  lemma AddZeroVector(p: Vec, v: Vec)
    requires v == Zero
    ensures Add(p, v) == p
  {
  }

  lemma SubZeroIff(p: Vec, q: Vec)
    ensures Sub(p, q) == Zero <==> p == q
  {
    if Sub(p, q) == Zero {
      assert p.x == q.x && p.y == q.y;
    }
  }

  lemma SubZeroVector(p: Vec, v: Vec)
    requires v == Zero
    ensures Sub(p, v) == p
  {
  }

  /** `limit` leaves the zero vector alone, whatever the bound. */
  lemma LimitKeepsZero(v: Vec, m: real, root: real -> real)
    requires IsRoot(root) && v == Zero
    ensures Limit(v, m, root) == Zero
  {
    WithinZero(m);
  }

  /** Dividing by `k` is scaling by its reciprocal. */
  lemma DivIsScale(v: Vec, k: real)
    requires k != 0.0
    ensures Div(v, k) == Scale(v, 1.0 / k)
  {
  }

  /** Dividing by `k` and scaling back by `k` gives the vector again. */
  lemma DivScaleBack(v: Vec, k: real)
    requires k != 0.0
    ensures Scale(Div(v, k), k) == v
  {
  }

  lemma ScaleNonZero(v: Vec, c: real)
    requires v != Zero && c != 0.0
    ensures Scale(v, c) != Zero
  {
    if v.x != 0.0 {
      MulNonZero(c, v.x);
    } else {
      MulNonZero(c, v.y);
    }
  }

  /** `setMag` of a non-zero vector divides by its length. */
  lemma SetMagNonZero(v: Vec, m: real, root: real -> real)
    requires IsRoot(root) && v != Zero
    ensures 0.0 < root(NormSq(v))
    ensures SetMag(v, m, root) == Scale(v, m / root(NormSq(v)))
  {
    NormSqPositive(v);
    PositiveRoot(root, NormSq(v));
  }

  lemma CancelFactor(c: real, a: real, sgn: real, m: real, len: real)
    requires 0.0 < a && 0.0 < len
    requires c == sgn * a
    ensures c * (m / (a * len)) == sgn * (m / len)
  {
    var k := m / len;
    assert k * len == m;
    assert m / (a * len) == k / a;
    assert a * (k / a) == k;
  }

  // ---------------------------------------------------------------------------
  // Symmetries of SetMag and Limit
  // ---------------------------------------------------------------------------

  /** A positive rescaling of its input is invisible to `setMag`. */
  lemma SetMagPositiveScale(v: Vec, c: real, m: real, root: real -> real)
    requires IsRoot(root)
    requires 0.0 < c
    ensures SetMag(Scale(v, c), m, root) == SetMag(v, m, root)
  {
    if v == Zero {
      assert Scale(v, c) == Zero;
    } else {
      ScaleNonZero(v, c);
      SetMagNonZero(v, m, root);
      SetMagNonZero(Scale(v, c), m, root);
      RootOfScaled(root, v, c, c);
      var len := root(NormSq(v));
      RescaleCancels(v, c, m, len);
    }
  }

  /** Scaling by `c` and then by `m / (c * len)` is scaling by `m / len`. */
  lemma RescaleCancels(v: Vec, c: real, m: real, len: real)
    requires 0.0 < c && 0.0 < len
    ensures Scale(Scale(v, c), m / (c * len)) == Scale(v, m / len)
  {
    MulPos(c, len);
    CancelFactor(c, c, 1.0, m, len);
    ScaleScale(v, c, m / (c * len));
  }

  /** `setMag` commutes with reversing a vector. */
  lemma SetMagNegate(v: Vec, m: real, root: real -> real)
    requires IsRoot(root)
    ensures SetMag(Scale(v, -1.0), m, root) == Scale(SetMag(v, m, root), -1.0)
  {
    if v == Zero {
      NegateZero();
      SetMagZero(m, root);
    } else {
      ScaleNonZero(v, -1.0);
      SetMagNonZero(v, m, root);
      SetMagNonZero(Scale(v, -1.0), m, root);
      NormSqNegate(v);
      var k := m / root(NormSq(v));
      assert SetMag(Scale(v, -1.0), m, root) == Scale(Scale(v, -1.0), k);
      assert SetMag(v, m, root) == Scale(v, k);
      NegateScale(v, k);
    }
  }

  lemma NegateScale(v: Vec, k: real)
    ensures Scale(Scale(v, -1.0), k) == Scale(Scale(v, k), -1.0)
  {}

  lemma NegateZero()
    ensures Scale(Zero, -1.0) == Zero
  {}

  lemma SetMagZero(m: real, root: real -> real)
    requires IsRoot(root)
    ensures SetMag(Zero, m, root) == Zero
  {}

  lemma NormSqNegate(v: Vec)
    ensures NormSq(Scale(v, -1.0)) == NormSq(v)
  {}

  /** `limit` commutes with reversing a vector. */
  lemma LimitNegate(v: Vec, m: real, root: real -> real)
    requires IsRoot(root)
    ensures Limit(Scale(v, -1.0), m, root) == Scale(Limit(v, m, root), -1.0)
  {
    NormSqNegate(v);
    if !Within(v, m) {
      NormSqNonNeg(v);
      SquareNonNeg(m);
      PositiveRoot(root, NormSq(v));
      var k := m / root(NormSq(v));
      ScaleScale(v, -1.0, k);
      ScaleScale(v, k, -1.0);
    }
  }

  /** `setMag` of a non-zero vector to a non-zero length is a multiple of it
      whose sign is the sign of the length. */
  lemma SetMagDirection(v: Vec, m: real, root: real -> real)
    requires IsRoot(root) && v != Zero && m != 0.0
    ensures exists k :: SetMag(v, m, root) == Scale(v, k) && (0.0 < m ==> 0.0 < k) && (m < 0.0 ==> k < 0.0)
  {
    SetMagNonZero(v, m, root);
    DivSign(m, root(NormSq(v)));
  }

  /** `setMag` of a non-zero vector to `m` projects onto it with `m` times
      its length. */
  lemma DotOfSetMag(v: Vec, m: real, root: real -> real)
    requires IsRoot(root) && v != Zero
    ensures 0.0 < root(NormSq(v)) && root(NormSq(v)) * root(NormSq(v)) == NormSq(v)
    ensures Dot(SetMag(v, m, root), v) == m * root(NormSq(v))
  {
    SetMagNonZero(v, m, root);
    var len := root(NormSq(v));
    NormSqPositive(v);
    PositiveRoot(root, NormSq(v));
    var c := m / len;
    assert Dot(Scale(v, c), v) == c * NormSq(v);
    assert c * NormSq(v) == (c * len) * len;
    assert c * len == m;
  }

  /** A multiple of a non-zero vector has a dot product with it of the
      multiple's sign. */
  lemma DotWithMultiple(v: Vec, k: real)
    requires v != Zero
    ensures 0.0 < k ==> 0.0 < Dot(Scale(v, k), v)
    ensures k < 0.0 ==> Dot(Scale(v, k), v) < 0.0
  {
    NormSqPositive(v);
    assert Dot(Scale(v, k), v) == k * NormSq(v);
    if 0.0 < k {
      MulPos(k, NormSq(v));
    } else if k < 0.0 {
      MulPos(-k, NormSq(v));
      assert (-k) * NormSq(v) == -(k * NormSq(v));
    }
  }
}
